=== FILE: README.md ===
# A verified model of the rag-app retrieval core

rag-app answers questions about a small knowledge base of people and
concepts. `DataLoader` reads JSON files from a data folder. It flattens each
record into a searchable text and stores the record in a SQLite table.
`EmbeddingManager` keeps a FAISS inner-product index over sentence
embeddings, together with the list that maps index positions back to
record ids. `RAGSearch` takes a question through these steps:

- it expands shortcuts such as `info` and `def`;
- it resolves a pronoun against the entity the previous question was about;
- it lets a fuzzy match on a known name override that entity;
- it merges a forced record with the vector hits and fetches the records;
- it refreshes the one-slot context;
- it answers from the top record's metadata through a fixed intent cascade.

This project models that core in Dafny. The model is split into seven
modules.

- `PyValues` (py_values.dfy) holds the Python values and operations the
  code relies on. It models JSON values and dicts as ordered entry lists,
  `d.get` and `key in d`, truthiness and `or`, `str`/`repr`,
  `split`/`join`/`strip`/`lower`, substring `in`, and exceptions as the
  error side of a `Result`.
- `Query` (query.dfy) models `expand_query` and the pronoun test.
- `Records` (records.dfy) models a stored row, a retrieved document,
  lookup by id, and the guarded metadata parse.
- `Embedding` (embedding.dfy) models the class `EmbeddingManager`:
  - `index` and `id_mapping` are fields;
  - `build_index`, `search`, `save_index` and `load_index` are methods;
  - a disk is a map from paths to artifacts.
- `DataLoader` (data_loader.dfy) models the following:
  - the file listing and the `{"data": [...]}` shape handling;
  - `prepare_content`, as a method with loops proved equal to a
    specification function;
  - `load_into_database`, as a method that returns its count together with
    the sequence of insert calls it made.
- `Answer` (answer.dfy) models `generate_answer` as a pure function. A lemma
  shows it equals a table-driven cascade of rules.
- `Search` (search.dfy) models the class `RAGSearch`, with `known_names` and
  `last_entity` as fields. The retrieval steps are specification functions
  with their own lemmas. `Retrieve` and `AnswerQuestion` are proved against
  those functions.

The model takes these collaborators as parameters:

- the database rows, as a sequence in table order;
- `json.loads` on metadata text;
- thefuzz's `extractOne`;
- the FAISS search of a query against an index;
- the outcome of each `insert_record` call.

Four behaviours of the code are worth noting:

- The pronoun list is `he, she, it, they, him, her, this`, and "his" is not
  in it. So a follow-up such as "what is his role" does not bring the
  previous entity back. `Query.HisIsNotAPronoun` states this.
- The fuzzy matcher receives the expanded query, because search.py:47
  reassigns `query` before `extractOne` is called at search.py:66. It does
  not receive the original question.
- Record ids are not forced to strings by the code. The forced id, the
  seen set and the fetch compare whatever the mapping holds. This model
  keeps row and hit ids as strings and record ids from JSON as JSON values
  (see "Left out").
- With no records there is nothing to retrieve, yet retrieval does not
  return an empty list. With no records app.py:64-74 never calls
  `build_index`, so `search` raises ValueError
  (`Search.RAGSearch.RetrieveWithoutIndex`), and `answer_question` passes
  the error on instead of returning the "couldn't find" message. An index
  built over no vectors pads its answer with -1, and `id_mapping[-1]` on an
  empty mapping raises IndexError (`Search.RAGSearch.RetrieveWithEmptyMapping`).

## Model

| member | source | states |
|---|---|---|
| PyValues.GetSpec | search.py:23-27 | `key in d` holds exactly when some entry has the key, and `d[key]` is the value of the first such entry |
| PyValues.Or | search.py:119 | `a or b` is truthy iff either operand is; it is `a` when `a` is truthy and `b` otherwise |
| PyValues.Str | data_loader.py:62-64 | `str` of a string is the string itself |
| PyValues.WordsSpec | search.py:39 | `split()` yields exactly the maximal runs of non-whitespace characters, in order: one word for each position where such a run starts, and that word is the whole run |
| PyValues.WordsOfJoin | search.py:39-41 | splitting words re-joined with single spaces gives back the same words |
| PyValues.StripSpec | data_loader.py:72 | `strip()` returns a slice of its input that neither starts nor ends with whitespace |
| PyValues.Lower | search.py:49 | `lower()` keeps the length and folds each character on its own |
| PyValues.ContainsAt | search.py:51 | substring `in` holds iff the pattern starts at some position of the text |
| Records.Lookup | search.py:102 | a lookup only returns a row with the requested id |
| Records.LookupSpec | search.py:102-103 | a lookup misses exactly when no stored row has the id, and a hit is a stored row |
| Query.ExpandQuery | search.py:31-41 | definition of `expand_query`; characterised by `ExpandedWords` and `ExpandIdempotent` |
| Query.ExpandWords | search.py:40 | exposes the comprehension: each word is looked up on its own and the number of words is kept; what the lookup gives is stated by `ExpandedWords` |
| Query.ExpandWordIdempotent | search.py:33-38 | no replacement is itself a shortcut, so expanding a word twice equals expanding it once |
| Query.ExpandedWords | search.py:31-41 | the words of the expanded query are the original words, each replaced by its table entry (looked up in lower case) exactly when it has one |
| Query.ExpandIdempotent | search.py:31-41 | expanding an already expanded query changes nothing |
| Query.HasPronoun | search.py:49-52 | definition of the pronoun test on the lower-cased query; characterised by `HasPronounOfWords` and `PronounIsWholeWord` |
| Query.LowerJoin | search.py:49 | lower-casing a space-joined query lower-cases each of its words |
| Query.PaddedOccurs | search.py:51 | in a space-padded, space-joined word list, " p " occurs iff `p` is one of the words |
| Query.HasPronounOfWords | search.py:50-52 | on a space-joined word list the pronoun test holds iff some word is in the pronoun list |
| Query.PronounIsWholeWord | search.py:47-52 | the pronoun test on the lower-cased expanded query holds iff one of its whitespace-separated words, lower-cased, is a listed pronoun; punctuation attached to a pronoun or a pronoun inside a word does not count |
| Query.HisIsNotAPronoun | search.py:50 | "his work" does not trigger the pronoun test, while "her work" does |
| Embedding.MapHits | embedding.py:53-58 | the kept pairs are at most the raw pairs and name only mapped ids; the loop raises IndexError exactly when a position lies below `-len(id_mapping)` |
| Embedding.PassingSpec | embedding.py:53-55 | the pairs passing the `idx < len(id_mapping)` test are exactly the raw pairs at the positions where the test holds, in the raw order |
| Embedding.MapHitsKeepsPassing | embedding.py:53-58 | without a position below `-len(id_mapping)`, the result is one pair per passing position: the id at that (possibly negative) position and its score |
| Embedding.PaddingSelectsLastId | embedding.py:54-56 | FAISS's padding position -1 selects the last id in the mapping |
| Embedding.PaddingOnEmptyMappingRaises | embedding.py:54-56 | a padding position -1 with an empty mapping passes the bound test and raises IndexError |
| Embedding.LoadOutcome | embedding.py:71-79 | loading returns False and leaves the state alone exactly when either file is missing; on True the state is what the two files hold |
| Embedding.SaveLoadRoundTrip | embedding.py:60-79 | saving to two distinct paths and loading them back restores the index and the mapping, so every later search answers as before |
| Embedding.SaveToOnePathDoesNotLoad | embedding.py:65-67 | saving both artifacts to one path leaves only the mapping there, and loading from it fails |
| Embedding.EmbeddingManager.constructor | embedding.py:9-15 | a new manager has no index and an empty mapping |
| Embedding.EmbeddingManager.BuildIndex | embedding.py:23-36 | the index becomes a flat index over the given vectors, and the mapping becomes the given ids |
| Embedding.EmbeddingManager.Search | embedding.py:40-58 | ValueError before an index exists; otherwise the raw neighbours mapped through `id_mapping` as `MapHits` states |
| Embedding.EmbeddingManager.SaveIndex | embedding.py:60-67 | ValueError without an index; otherwise the disk with the index file and then the mapping file written |
| Embedding.EmbeddingManager.LoadIndex | embedding.py:71-79 | the result and the new index state are those of `LoadOutcome` on the old state |
| Answer.GenerateAnswer | search.py:129-214 | definition of `generate_answer`; characterised by `CascadeAgrees` and the rule lemmas below |
| Answer.JoinParts | search.py:169 | exposes the definition of `"\n\n".join`: it succeeds iff every part is a string and otherwise raises TypeError; its use is stated by `ComprehensiveWins` and `ComprehensiveNonStringSummaryRaises` |
| Answer.FirstFiring | search.py:145-207 | the chosen rule fires and no earlier rule does |
| Answer.CascadeAgrees | search.py:129-214 | with documents, the answer is the rendering of the first rule in priority order that fires on the top metadata |
| Answer.NoDocumentsAnswer | search.py:131-132 | with no documents the answer is the fixed "couldn't find" message |
| Answer.OnlyTopMetadataMatters | search.py:134-135 | two document lists with the same top metadata get the same answer |
| Answer.ComprehensiveWins | search.py:138-169 | a comprehensive keyword wins over every other rule and answers with the joined paragraphs |
| Answer.ComprehensiveWithoutFieldsIsEmpty | search.py:147-169 | a comprehensive question about a record with none of the gathered fields gets the empty string |
| Answer.ComprehensiveNonStringSummaryRaises | search.py:150-169 | a truthy summary that is not a string makes the comprehensive join raise TypeError |
| Answer.ExplanationVerbatim | search.py:171-173 | without a comprehensive keyword, a present `explanation` is returned as it is, with no title |
| Answer.EducationSentence | search.py:178-185 | the education rule answers "<name> studied at <education>.", with "This entity" when `name` is absent |
| Answer.RoleWithoutCompany | search.py:194-200 | the role rule prints a missing company as `None` |
| Answer.NoSummaryAnswer | search.py:209-212 | when no rule fires and there is no summary, explanation, description or content, the answer is the fixed "couldn't extract" message |
| Answer.PythonScenario | search.py:171-173 | "what is python" on a concept record answers with its explanation, without a title |
| Answer.EducationOfPerson | search.py:180-185 | an education question on a record with a name and a non-empty education gets the education sentence |
| Answer.AdaLovelaceScenario | search.py:129-185 | "where did Ada Lovelace study" on Ada Lovelace's record answers "Ada Lovelace studied at Mathematics." |
| DataLoader.ListedPartsSpec | data_loader.py:58-64 | the listed parts are the texts of exactly the text fields that are present with a truthy value, in field order; a list is its items `str`-ed and joined with spaces |
| DataLoader.FallbackPartsSpec | data_loader.py:66-70 | the fallback parts are `str` of exactly the string, int, float and bool values whose key is not "id", in the record's order |
| DataLoader.Content | data_loader.py:46-72 | definition of the searchable text; characterised by `ListedPartsSpec`, `FallbackPartsSpec`, `ContentStripped` and computed by `PrepareContent` |
| DataLoader.PrepareContent | data_loader.py:46-72 | the two loops compute the searchable text `Content` |
| DataLoader.ContentStripped | data_loader.py:72 | the searchable text neither starts nor ends with whitespace |
| DataLoader.ListedPartsEmpty | data_loader.py:58-59 | the listed parts are empty iff no text field is present with a truthy value |
| DataLoader.ContentIgnoresId | data_loader.py:51-70 | the record's own "id" never contributes to its searchable text |
| DataLoader.ContentFromTextFields | data_loader.py:58-72 | when some text field is present and truthy, the fallback is not used |
| DataLoader.EmptyRecordContent | data_loader.py:46-72 | an empty record has empty content |
| DataLoader.Normalize | data_loader.py:31-39 | a file holding a list contributes all its elements, in order, and a file holding a scalar contributes that one value as a record |
| DataLoader.NormalizeObject | data_loader.py:31-39 | `{"data": [...]}` contributes its items, and any other object is one record |
| DataLoader.LoadJsonFiles | data_loader.py:10-44 | the loop collects `Records` of the listing: `*.json` files that decode, normalised, in listing order |
| DataLoader.RecordsAppend | data_loader.py:25-39 | the records of two listings are the records of each, in order |
| DataLoader.FirstNonObjectSpec | data_loader.py:83-85 | every record before the stop position is a dict, and the record there is not |
| DataLoader.InsertFor | data_loader.py:85-94 | a record leads to at most one insert call |
| DataLoader.InsertsSpec | data_loader.py:83-94 | the insert calls for the first n records are those of exactly the dicts among them with non-empty content, in record order, each with its `id` (or "record_<position>"), its content and the whole record |
| DataLoader.Succeeded | data_loader.py:93-94 | the count never exceeds the number of insert calls |
| DataLoader.SucceededAppend | data_loader.py:93-94 | counting successful inserts adds up over any two consecutive runs of calls |
| DataLoader.SucceededCounts | data_loader.py:93-94 | the count is exactly the number of insert calls that returned True |
| DataLoader.InsertRecord | data_loader.py:84-94 | one pass of the loop makes the record's insert call, if any, and counts it when it succeeds |
| DataLoader.LoadIntoDatabase | data_loader.py:74-97 | the insert calls are those for the records before the first non-dict. The result is AttributeError when such a record exists, and otherwise the number of successful inserts (0 with no records) |
| DataLoader.LoadedAtMostRecords | data_loader.py:82-97 | the count is at most the number of records loaded |
| DataLoader.InsertsHaveContent | data_loader.py:88-90 | every insert carries non-empty content |
| DataLoader.InsertForContent | data_loader.py:85-93 | a dict with content leads to one insert, with its `id` (or "record_<position>"), its content and the whole record as metadata |
| DataLoader.InsertsPrefix | data_loader.py:83-94 | going further through the records only appends insert calls |
| DataLoader.EveryRecordInserted | data_loader.py:83-94 | when every record is a dict with content, the j-th insert is the j-th record's |
| DataLoader.AllRecordsLoaded | data_loader.py:74-94 | when every record is a dict with content, loading makes one insert call per record and raises nothing |
| DataLoader.SkippedRecordKeepsPosition | data_loader.py:83-90 | a skipped empty record still uses up its position, so the next record's default id is "record_1" |
| DataLoader.AdaListed | data_loader.py:58-64 | a record holding only a name contributes just that name |
| Search.Catalogue | search.py:15-29 | definition of `known_names`; characterised by `CatalogueMember` and `NameBeforeTitle` |
| Search.RowNamesMember | search.py:19-29 | a row adds an entry exactly when its metadata parses and holds that value under `name` or `title` |
| Search.CatalogueMember | search.py:15-29 | `known_names` holds (n, id) exactly when some row with that id has metadata that parses and holds n under `name` or `title` |
| Search.NameBeforeTitle | search.py:23-27 | a row holding both keys adds its name, then its title |
| Search.Names | search.py:62 | exposes the comprehension: the names list is the first components of the catalogue, in order; the match on it is stated by `FuzzyMatch` and `FuzzyHit` |
| Search.FindNameIdSpec | search.py:70-73 | the lookup finds an id iff some entry bears the name, and the id is that of the first such entry |
| Search.FuzzyId | search.py:61-76 | definition of the fuzzy step; characterised by `FuzzyMatch` and `FuzzyHit` |
| Search.FuzzyHit | search.py:62-73 | when `extractOne` returns one of the names with a score above 80, the fuzzy step yields the id of the first entry bearing that name |
| Search.FuzzyMatch | search.py:62-73 | the fuzzy step yields an id exactly when the catalogue is non-empty, the score is above 80 and some entry bears the matched name; the id is the first such entry's |
| Search.EmptyCatalogueNoMatch | search.py:65 | an empty catalogue never matches |
| Search.PlanFor | search.py:47-83 | definition of the query plan (pronoun, fuzzy id, forced id, search query); characterised by `Forcing` |
| Search.Forcing | search.py:54-81 | a truthy fuzzy id is forced. Otherwise the context id is forced exactly when a pronoun occurs and a context is set, and in that case alone the context name is appended to the search query |
| Search.MergeHitsFirstOccurrences | search.py:86-96 | after the initial entries, the merged list holds exactly the first hit of each id not already present, in the order of the hits |
| Search.MergeHitsSpec | search.py:86-96 | the merged list starts with its initial entries (the forced one, if any). The rest is exactly the first hit of each id not among them, in the order of the hits, so every hit id is present and no id occurs twice |
| Search.PyPrefix | search.py:98 | `s[:k]` is the prefix of `s` of length min(k, len(s)) for k of 0 or more, and of length max(len(s) + k, 0) for negative k |
| Search.Merge | search.py:85-98 | definition of the merge and the `[:top_k]` cut; characterised by `MergeSpec` and `MergeWithoutForced` |
| Search.MergeSpec | search.py:85-98 | the merged list has at most `top_k` entries and no id twice, and a truthy forced id comes first with score 2.0 |
| Search.MergeWithoutForced | search.py:85-98 | without a forced id, the merged list is the hits with each id kept at its first occurrence only, in their order, cut to `top_k` |
| Search.Fetch | search.py:100-114 | definition of the fetch loop; characterised by `FetchSpec` and `FetchExact` |
| Search.FetchSpec | search.py:100-114 | documents keep the merged order, ids and scores. Each one carries a stored row's content and its parsed metadata, or `{}` when that does not parse. The documents are exactly those of the merged entries whose id is stored, so nothing is dropped when every id is stored |
| Search.FetchExact | search.py:100-114 | the documents are exactly those of the merged entries whose id is stored, in merged order, each with the entry's id and score and the row's content and parsed metadata |
| Search.FetchDistinct | search.py:100-114 | merged entries with distinct ids give documents with distinct ids |
| Search.RetrievedDistinct | search.py:85-114 | a retrieval never returns two documents with the same id |
| Search.MergeHitsDescending | search.py:89-96 | after the initial entries, the merged list keeps the hits' descending score order |
| Search.MergeDescending | search.py:85-98 | with the hits in descending score order, the merged list is descending after the forced entry, which scores 2.0 |
| Search.FetchTopScore | search.py:100-114 | fetching keeps a descending score order: the first document is the 2.0 sentinel or scores at least as high as every later one |
| Search.TopScore | search.py:85-114 | with the vector hits in descending score order, the first document either is the forced record at score 2.0 or has the highest score of the documents returned |
| Search.FetchFirst | search.py:100-114 | a stored first entry becomes the first document |
| Search.FetchPrefix | search.py:100-114 | fetching a prefix of the merged list yields a prefix of the documents |
| Search.ContextRefresh | search.py:116-124 | the context changes only when the top document has a truthy `name` or `title`. It then takes the `name` if truthy and the `title` otherwise, and is never cleared |
| Search.PronounFollowUp | search.py:47-114 | a pronoun follow-up with no fuzzy match and a stored context record: the search query carries the context name, and that record comes first with score 2.0 |
| Search.FuzzyOverridesContext | search.py:61-114 | a fuzzy match decides the first document even against a pronoun and a context, and the search query stays the expanded question |
| Search.ContextCarriesOver | search.py:116-124 | once a named document came first, the next pronoun follow-up without a fuzzy match is forced to that document |
| Search.Sources | search.py:226-233 | exposes the comprehension: the first three documents (or fewer), each as id, score and metadata; its use is stated by `RAGSearch.AnswerQuestion` |
| Search.MergeResults | search.py:85-98 | the merge loop and the truncation compute `Merge` |
| Search.FetchDocuments | search.py:100-114 | the fetch loop computes `Fetch` |
| Search.RAGSearch.constructor | search.py:8-13 | a new search object has the catalogue of the stored rows and no context |
| Search.RAGSearch.LoadKnownNames | search.py:15-29 | the loop rebuilds `known_names` as `Catalogue` of the rows and leaves the context alone |
| Search.RAGSearch.RetrieveDistinct | search.py:43-127 | the documents of a successful `retrieve_relevant_documents` have distinct ids |
| Search.RAGSearch.RetrieveWithoutIndex | embedding.py:40-43 | before any index is built, retrieval raises ValueError("Index not built yet") and keeps the context |
| Search.RAGSearch.RetrieveWithEmptyMapping | embedding.py:50-56 | with an index but an empty mapping, a negative (padding) position in the raw answer makes retrieval raise IndexError and keep the context |
| Search.RAGSearch.FuzzyStep | search.py:61-73 | the loop with its early exit computes `FuzzyId` |
| Search.RAGSearch.RetrieveOutcome | search.py:43-127 | definition of what `retrieve_relevant_documents` returns and the context it leaves; computed by `Retrieve`, characterised through `Forcing`, `MergeSpec`, `FetchSpec`, `ContextRefresh` and `RetrieveDistinct` |
| Search.RAGSearch.Retrieve | search.py:43-127 | the result and the new context are `RetrieveOutcome` in the old state, and the catalogue is unchanged |
| Search.RAGSearch.AnswerQuestion | search.py:216-234 | retrieves five documents, answers from them, and lists the first three as sources. Errors propagate, and the context is updated as `Retrieve` does |

## Left out

- The sentence-transformer encoder and `create_embeddings` are not modelled.
  FAISS's inner-product search is the parameter `rawSearch`, and L2
  normalisation and float32 storage are not modelled. Scores are reals.
- thefuzz's `token_set_ratio` scorer and `extractOne` are a parameter. The
  model only fixes what search.py does with the name and score returned.
- `json.loads` of metadata text is a parameter that returns a dict or
  fails. Metadata that decodes to a non-dict (a list, a number) is not
  modelled, because the loader only stores `json.dumps` of dict records.
- database.py is not part of this model. The store is the sequence of rows
  that `get_all_records` returns, and `get_record_by_id` is the first row
  with the id. `insert_record`'s success is the parameter `insert`; the
  table after `INSERT OR IGNORE` is not related to the insert calls.
- File I/O (`os.path.exists`, `makedirs`, `listdir`, `open`) becomes a
  listing of file names and decoded contents. A file that fails to read or
  decode is caught, like the source's `except`, and contributes nothing.
  Pickle and FAISS file formats become disk artifacts.
- `print` output and logging are left out.
- Concurrency and the FastAPI layer are not part of this model.
- `lower()` folds ASCII letters only. `repr` escapes only quotes,
  backslashes and the common control characters, and floats keep the text
  that Python's `repr` prints.
- JSON objects are entry lists whose lookups take the first entry with a
  key. Duplicate keys, where Python keeps the last value, are not modelled.
- Equality across types, such as Python's `1 == 1.0` when a fuzzy name is
  compared, is not modelled. Names compare as JSON values.
- Record ids in rows and hits are strings. A non-string `id` in a source
  record reaches `insert_record` as it is, and its conversion by SQLite is
  left out.
- A negative `top_k` gets Python's slice semantics, and what FAISS does
  with such a `k` is left to `rawSearch`.
- FAISS returns its neighbours in descending score order, but the
  parameter `rawSearch` is unconstrained. `Search.TopScore` therefore takes
  that order as a hypothesis on the hits.

=== FILE: answer.dfy ===
/** `RAGSearch.generate_answer`: the intent cascade that turns the top
    document's metadata into an answer. Every keyword test is a substring
    test on the lower-cased question; the first rule that fires answers. */
module Answer {
  import opened PyValues
  import opened Records

  const NoDocumentsMessage: string :=
    "I couldn't find any relevant information to answer your question. Please try rephrasing or ask something else."
  const NoSummaryMessage: string :=
    "I found some information but couldn't extract a clear summary."

  const ComprehensiveKeywords: seq<string> :=
    ["everything", "full info", "tell me about", "details", "all about", "who is"]
  const EducationKeywords: seq<string> :=
    ["stud", "educat", "college", "university", "degree", "school", "graduat"]
  const CareerKeywords: seq<string> :=
    ["work", "career", "join", "position", "compan", "history"]
  const RoleKeywords: seq<string> :=
    ["role", "job", "title", "ceo", "founder", "position", "do"]
  const ContributionKeywords: seq<string> :=
    ["known for", "did", "contribution", "invent", "create", "make", "built"]

  /** `metadata.get(key)`. */
  function Field(md: Object, key: string): Json
  {
    GetOr(md, key, JNull)
  }

  /** `metadata.get('summary') or metadata.get('explanation') or metadata.get('description')`. */
  function Summary(md: Object): Json
  {
    Or(Or(Field(md, "summary"), Field(md, "explanation")), Field(md, "description"))
  }

  /** The parts of the comprehensive answer, in order: the summary when
      truthy, then one line for each of education, career, contribution and
      role whose key is present (whatever its value). */
  function Paragraphs(md: Object): seq<Json>
  {
    var summary := Summary(md);
    (if Truthy(summary) then [summary] else [])
    + (if HasKey(md, "education") then [JStr("Education: " + Str(Field(md, "education")))] else [])
    + (if HasKey(md, "career") then [JStr("Career: " + Str(Field(md, "career")))] else [])
    + (if HasKey(md, "contribution") then [JStr("Contribution: " + Str(Field(md, "contribution")))] else [])
    + (if HasKey(md, "role")
       then [JStr("Role: " + Str(Field(md, "role")) + " at " + Str(GetOr(md, "company", JStr(""))))]
       else [])
  }

  function Texts(parts: seq<Json>): seq<string>
    requires forall j :: 0 <= j < |parts| ==> parts[j].JStr?
  {
    seq(|parts|, j requires 0 <= j < |parts| => parts[j].s)
  }

  /** `sep.join(parts)`: TypeError as soon as one part is not a string. */
  function JoinParts(sep: string, parts: seq<Json>): (r: Result<string>)
    ensures r.Ok? <==> forall j :: 0 <= j < |parts| ==> parts[j].JStr?
    ensures r.Ok? ==> r.value == Join(sep, Texts(parts))
    ensures r.Err? ==> r.error == TypeError
  {
    if forall j :: 0 <= j < |parts| ==> parts[j].JStr? then Ok(Join(sep, Texts(parts))) else Err(TypeError)
  }

  /** The answer: a string built by the rule, or a metadata value returned
      verbatim; TypeError when the comprehensive join meets a non-string. */
  function GenerateAnswer(query: string, docs: seq<Document>): Result<Json>
  {
    if docs == [] then Ok(JStr(NoDocumentsMessage))
    else
      var md := docs[0].metadata;
      var ql := Lower(query);
      if AnyIn(ql, ComprehensiveKeywords) then
        match JoinParts("\n\n", Paragraphs(md))
        case Ok(text) => Ok(JStr(text))
        case Err(e) => Err(e)
      else if HasKey(md, "explanation") then Ok(Field(md, "explanation"))
      else if HasKey(md, "description") then Ok(Field(md, "description"))
      else
        var name := GetOr(md, "name", JStr("This entity"));
        if AnyIn(ql, EducationKeywords) && Truthy(Field(md, "education")) then
          Ok(JStr(Str(name) + " studied at " + Str(Field(md, "education")) + "."))
        else if AnyIn(ql, CareerKeywords) && Truthy(Field(md, "career")) then
          Ok(JStr(Str(Field(md, "career"))))
        else if AnyIn(ql, RoleKeywords) && Truthy(Field(md, "role")) then
          Ok(JStr(Str(name) + " is the " + Str(Field(md, "role")) + " of " + Str(Field(md, "company")) + "."))
        else if AnyIn(ql, ContributionKeywords) && Truthy(Field(md, "contribution")) then
          Ok(JStr(Str(name) + " is known for: " + Str(Field(md, "contribution")) + "."))
        else
          var fallback := Or(Or(Or(Field(md, "summary"), Field(md, "explanation")), Field(md, "description")),
                             Field(md, "content"));
          if !Truthy(fallback) then Ok(JStr(NoSummaryMessage)) else Ok(fallback)
  }

  // ----------------------------------------------- the cascade as a table

  /** The rules of the cascade as a closed set, in priority order. */
  datatype Intent = Comprehensive | Explanation | Description | Education | Career | Role | Contribution | Fallback

  const Cascade: seq<Intent> := [Comprehensive, Explanation, Description, Education, Career, Role, Contribution]

  /** Whether a rule fires for the lower-cased question `ql` and metadata `md`. */
  predicate Fires(rule: Intent, ql: string, md: Object)
  {
    match rule
    case Comprehensive => AnyIn(ql, ComprehensiveKeywords)
    case Explanation => HasKey(md, "explanation")
    case Description => HasKey(md, "description")
    case Education => AnyIn(ql, EducationKeywords) && Truthy(Field(md, "education"))
    case Career => AnyIn(ql, CareerKeywords) && Truthy(Field(md, "career"))
    case Role => AnyIn(ql, RoleKeywords) && Truthy(Field(md, "role"))
    case Contribution => AnyIn(ql, ContributionKeywords) && Truthy(Field(md, "contribution"))
    case Fallback => true
  }

  /** The position of the first rule of `rules` that fires (|rules| when none does). */
  function FirstFiring(rules: seq<Intent>, ql: string, md: Object): (k: nat)
    ensures k <= |rules|
    ensures k < |rules| ==> Fires(rules[k], ql, md)
    ensures forall j :: 0 <= j < k ==> !Fires(rules[j], ql, md)
  {
    if rules == [] then 0
    else if Fires(rules[0], ql, md) then 0
    else 1 + FirstFiring(rules[1..], ql, md)
  }

  /** The rule the cascade picks: the first of `Cascade` that fires, else Fallback. */
  function Chosen(ql: string, md: Object): Intent
  {
    var k := FirstFiring(Cascade, ql, md);
    if k < |Cascade| then Cascade[k] else Fallback
  }

  /** What a rule answers with. */
  function Render(rule: Intent, md: Object): Result<Json>
  {
    var name := GetOr(md, "name", JStr("This entity"));
    match rule
    case Comprehensive =>
      (match JoinParts("\n\n", Paragraphs(md)) case Ok(text) => Ok(JStr(text)) case Err(e) => Err(e))
    case Explanation => Ok(Field(md, "explanation"))
    case Description => Ok(Field(md, "description"))
    case Education => Ok(JStr(Str(name) + " studied at " + Str(Field(md, "education")) + "."))
    case Career => Ok(JStr(Str(Field(md, "career"))))
    case Role => Ok(JStr(Str(name) + " is the " + Str(Field(md, "role")) + " of " + Str(Field(md, "company")) + "."))
    case Contribution => Ok(JStr(Str(name) + " is known for: " + Str(Field(md, "contribution")) + "."))
    case Fallback =>
      var fallback := Or(Or(Or(Field(md, "summary"), Field(md, "explanation")), Field(md, "description")),
                         Field(md, "content"));
      if !Truthy(fallback) then Ok(JStr(NoSummaryMessage)) else Ok(fallback)
  }

  /** `generate_answer` is the table-driven cascade: with documents, its
      answer is the rendering of the first rule of the fixed order that fires
      on the top document's metadata. */
  lemma CascadeAgrees(query: string, docs: seq<Document>)
    requires docs != []
    ensures GenerateAnswer(query, docs) == Render(Chosen(Lower(query), docs[0].metadata), docs[0].metadata)
  {
    var ql, md := Lower(query), docs[0].metadata;
    var k := FirstFiring(Cascade, ql, md);
    assert Cascade[0] == Comprehensive && Cascade[1] == Explanation && Cascade[2] == Description;
    assert Cascade[3] == Education && Cascade[4] == Career && Cascade[5] == Role && Cascade[6] == Contribution;
    if k == 0 {
    } else if k == 1 {
    } else if k == 2 {
    } else if k == 3 {
    } else if k == 4 {
    } else if k == 5 {
    } else if k == 6 {
    } else {
    }
  }

  // ------------------------------------------------------- properties

  /** With no documents the answer is the fixed "couldn't find" message. */
  lemma NoDocumentsAnswer(query: string)
    ensures GenerateAnswer(query, []) == Ok(JStr(NoDocumentsMessage))
  {
  }

  /** Only the top document's metadata matters. */
  lemma OnlyTopMetadataMatters(query: string, docs: seq<Document>, others: seq<Document>)
    requires docs != [] && others != [] && docs[0].metadata == others[0].metadata
    ensures GenerateAnswer(query, docs) == GenerateAnswer(query, others)
  {
  }

  /** A comprehensive keyword wins over every other rule, whatever other
      keywords the question holds and whatever fields the metadata has. */
  lemma ComprehensiveWins(query: string, docs: seq<Document>)
    requires docs != [] && AnyIn(Lower(query), ComprehensiveKeywords)
    ensures GenerateAnswer(query, docs) ==
              match JoinParts("\n\n", Paragraphs(docs[0].metadata))
              case Ok(text) => Ok(JStr(text))
              case Err(e) => Err(e)
  {
  }

  /** A comprehensive question about metadata with none of the fields gives
      the empty string: absent fields leave no placeholder. */
  lemma ComprehensiveWithoutFieldsIsEmpty(query: string, docs: seq<Document>)
    requires docs != [] && AnyIn(Lower(query), ComprehensiveKeywords)
    requires forall key :: key in ["summary", "explanation", "description", "education", "career", "contribution", "role"]
               ==> !HasKey(docs[0].metadata, key)
    ensures GenerateAnswer(query, docs) == Ok(JStr(""))
  {
    var md := docs[0].metadata;
    assert !HasKey(md, "summary") && !HasKey(md, "explanation") && !HasKey(md, "description");
    assert !HasKey(md, "education") && !HasKey(md, "career") && !HasKey(md, "contribution") && !HasKey(md, "role");
    assert Paragraphs(md) == [];
  }

  /** A truthy summary that is not a string makes the comprehensive join raise. */
  lemma ComprehensiveNonStringSummaryRaises(query: string, docs: seq<Document>)
    requires docs != [] && AnyIn(Lower(query), ComprehensiveKeywords)
    requires Truthy(Summary(docs[0].metadata)) && !Summary(docs[0].metadata).JStr?
    ensures GenerateAnswer(query, docs) == Err(TypeError)
  {
    assert Paragraphs(docs[0].metadata)[0] == Summary(docs[0].metadata);
  }

  /** Without a comprehensive keyword, a present `explanation` is the answer
      verbatim, even when it is empty, and no title is prefixed. */
  lemma ExplanationVerbatim(query: string, docs: seq<Document>)
    requires docs != [] && !AnyIn(Lower(query), ComprehensiveKeywords)
    requires HasKey(docs[0].metadata, "explanation")
    ensures GenerateAnswer(query, docs) == Ok(Get(docs[0].metadata, "explanation").value)
  {
  }

  /** The education rule names the entity, "This entity" when `name` is absent. */
  lemma EducationSentence(query: string, docs: seq<Document>)
    requires docs != [] && !AnyIn(Lower(query), ComprehensiveKeywords)
    requires !HasKey(docs[0].metadata, "explanation") && !HasKey(docs[0].metadata, "description")
    requires AnyIn(Lower(query), EducationKeywords)
    requires Truthy(Field(docs[0].metadata, "education"))
    ensures var md := docs[0].metadata;
            GenerateAnswer(query, docs) ==
              Ok(JStr((if HasKey(md, "name") then Str(Field(md, "name")) else "This entity")
                      + " studied at " + Str(Field(md, "education")) + "."))
  {
  }

  /** The role rule prints a missing company as `None`. */
  lemma RoleWithoutCompany(query: string, docs: seq<Document>, name: string, role: string)
    requires docs != [] && docs[0].metadata == [("name", JStr(name)), ("role", JStr(role))]
    requires !AnyIn(Lower(query), ComprehensiveKeywords)
    requires !AnyIn(Lower(query), EducationKeywords) && !AnyIn(Lower(query), CareerKeywords)
    requires AnyIn(Lower(query), RoleKeywords) && role != ""
    ensures GenerateAnswer(query, docs) == Ok(JStr(name + " is the " + role + " of None."))
  {
    var md := docs[0].metadata;
    assert Get(md, "role") == Some(JStr(role));
    assert Get(md, "name") == Some(JStr(name));
    GetAbsent(md, "company");
    GetAbsent(md, "explanation");
    GetAbsent(md, "description");
    assert Str(Field(md, "company")) == "None";
    assert name + " is the " + role + " of " + "None" + "." == name + " is the " + role + " of None.";
  }

  /** With no rule firing and no summary, explanation, description or content,
      the fixed "no clear summary" message is the answer. */
  lemma NoSummaryAnswer(query: string, docs: seq<Document>)
    requires docs != []
    requires forall j :: 0 <= j < |Cascade| ==> !Fires(Cascade[j], Lower(query), docs[0].metadata)
    requires !Truthy(Field(docs[0].metadata, "summary")) && !Truthy(Field(docs[0].metadata, "content"))
    ensures GenerateAnswer(query, docs) == Ok(JStr(NoSummaryMessage))
  {
    var ql, md := Lower(query), docs[0].metadata;
    var k := FirstFiring(Cascade, ql, md);
    CascadeAgrees(query, docs);
    assert Cascade[1] == Explanation && Cascade[2] == Description;
    assert !HasKey(md, "explanation") by { assert !Fires(Explanation, ql, md); }
    assert !HasKey(md, "description") by { assert !Fires(Description, ql, md); }
  }

  // ------------------------------------------------------- two scenarios

  lemma WhatIsPythonNotWhoIs(s: string)
    requires s == "what is python"
    ensures !Contains(s, "who is")
  {
    forall i ensures !OccursAt(s, "who is", i) {
      if 0 <= i && i + 6 <= |s| { assert s[i..i + 6][2] == s[i + 2]; }
    }
    NotContains(s, "who is");
  }

  lemma WhatIsPythonLacks(s: string, c: char)
    requires s == "what is python"
    requires c == 'g' || c == 'f' || c == 'm' || c == 'b' || c == 'd'
    ensures c !in s
  {
  }

  lemma WhatIsPythonHasNoComprehensiveKeyword(s: string)
    requires s == "what is python"
    ensures !AnyIn(s, ComprehensiveKeywords)
  {
    WhatIsPythonLacks(s, 'g');
    WhatIsPythonLacks(s, 'f');
    WhatIsPythonLacks(s, 'm');
    WhatIsPythonLacks(s, 'b');
    WhatIsPythonLacks(s, 'd');
    NotContainsChar(s, "details", 0);
    WhatIsPythonNotWhoIs(s);
    NoComprehensiveKeyword(s);
  }

  /** "what is python" on a concept record answers with its explanation, untitled. */
  lemma PythonScenario(docs: seq<Document>)
    requires docs != []
    requires docs[0].metadata == [("title", JStr("Python")), ("explanation", JStr("Python is a programming language."))]
    ensures GenerateAnswer("what is python", docs) == Ok(JStr("Python is a programming language."))
  {
    assert Lower("what is python") == "what is python";
    WhatIsPythonHasNoComprehensiveKeyword(Lower("what is python"));
    assert Get(docs[0].metadata, "explanation") == Some(JStr("Python is a programming language."));
  }

  /** The comprehensive test fails on a text lacking 'g', 'f', 'm' and 'b'
      that holds neither "details" nor "who is". */
  lemma NoComprehensiveKeyword(s: string)
    requires 'g' !in s && 'f' !in s && 'm' !in s && 'b' !in s
    requires !Contains(s, "details") && !Contains(s, "who is")
    ensures !AnyIn(s, ComprehensiveKeywords)
  {
    NotContainsChar(s, "everything", 9);
    NotContainsChar(s, "full info", 0);
    NotContainsChar(s, "tell me about", 5);
    NotContainsChar(s, "all about", 5);
  }

  lemma AdaQuestionLacks(s: string, c: char)
    requires s == "where did ada lovelace study"
    requires c == 'g' || c == 'f' || c == 'm' || c == 'b'
    ensures c !in s
  {
  }

  lemma AdaQuestionNotDetails(s: string)
    requires s == "where did ada lovelace study"
    ensures !Contains(s, "details")
  {
    forall i ensures !OccursAt(s, "details", i) {
      if 0 <= i && i + 7 <= |s| { assert s[i..i + 7][0] == s[i]; assert s[i..i + 7][1] == s[i + 1]; }
    }
    NotContains(s, "details");
  }

  lemma AdaQuestionNotWhoIs(s: string)
    requires s == "where did ada lovelace study"
    ensures !Contains(s, "who is")
  {
    forall i ensures !OccursAt(s, "who is", i) {
      if 0 <= i && i + 6 <= |s| { assert s[i..i + 6][0] == s[i]; assert s[i..i + 6][2] == s[i + 2]; }
    }
    NotContains(s, "who is");
  }

  lemma AdaQuestionKeywords(s: string)
    requires s == "where did ada lovelace study"
    ensures !AnyIn(s, ComprehensiveKeywords)
  {
    AdaQuestionLacks(s, 'g');
    AdaQuestionLacks(s, 'f');
    AdaQuestionLacks(s, 'm');
    AdaQuestionLacks(s, 'b');
    AdaQuestionNotDetails(s);
    AdaQuestionNotWhoIs(s);
    NoComprehensiveKeyword(s);
  }

  lemma AdaQuestionStudy(s: string)
    requires s == "where did ada lovelace study"
    ensures AnyIn(s, EducationKeywords)
  {
    assert s[23..27] == "stud";
    assert OccursAt(s, "stud", 23);
    ContainsAt(s, "stud");
    assert EducationKeywords[0] == "stud";
  }

  /** An education question on a record holding only a name and a non-empty
      education answers "{name} studied at {education}.". */
  lemma EducationOfPerson(query: string, docs: seq<Document>, name: string, education: string)
    requires docs != [] && docs[0].metadata == [("name", JStr(name)), ("education", JStr(education))]
    requires !AnyIn(Lower(query), ComprehensiveKeywords) && AnyIn(Lower(query), EducationKeywords)
    requires education != ""
    ensures GenerateAnswer(query, docs) == Ok(JStr(name + " studied at " + education + "."))
  {
    var md := docs[0].metadata;
    assert Get(md, "education") == Some(JStr(education));
    assert Get(md, "name") == Some(JStr(name));
    GetAbsent(md, "explanation");
    GetAbsent(md, "description");
  }

  lemma AdaQuestionLower(q: string)
    requires q == "where did Ada Lovelace study"
    ensures Lower(q) == "where did ada lovelace study"
  {
  }

  /** "where did Ada Lovelace study" on a personality record answers with the education sentence. */
  lemma AdaLovelaceScenario(docs: seq<Document>)
    requires docs != []
    requires docs[0].metadata == [("name", JStr("Ada Lovelace")), ("education", JStr("Mathematics"))]
    ensures GenerateAnswer("where did Ada Lovelace study", docs) == Ok(JStr("Ada Lovelace studied at Mathematics."))
  {
    assert "Ada Lovelace" + " studied at " + "Mathematics" + "." == "Ada Lovelace studied at Mathematics.";
    var q := "where did Ada Lovelace study";
    AdaQuestionLower(q);
    AdaQuestionKeywords(Lower(q));
    AdaQuestionStudy(Lower(q));
    EducationOfPerson(q, docs, "Ada Lovelace", "Mathematics");
  }
}

=== FILE: data_loader.dfy ===
/** `DataLoader` of data_loader.py: reading the JSON files of the data
    folder into one list of records, flattening each record into searchable
    text (`prepare_content`), and handing each record to the store
    (`load_into_database`). File I/O and `json.load` are inputs: a directory
    listing is a sequence of (file name, parsed content) pairs, None where
    the file could not be read or parsed. */
module DataLoader {
  import opened PyValues

  /** The fields `prepare_content` looks for, in this order. */
  const TextFields: seq<string> :=
    ["title", "name", "question", "query",
     "description", "content", "text", "body",
     "answer", "response", "summary",
     "category", "tags", "keywords"]

  // ------------------------------------------------------- prepare_content

  /** A text field's contribution: a list's items `str`-ed and joined with
      spaces, anything else `str`-ed. */
  function FieldText(v: Json): string
  {
    if v.JList? then Join(" ", seq(|v.items|, j requires 0 <= j < |v.items| => Str(v.items[j])))
    else Str(v)
  }

  /** The parts contributed by `fields`, in field order: one per field that
      is present with a truthy value. */
  function ListedParts(record: Object, fields: seq<string>): (r: seq<string>)
    ensures |r| <= |fields|
  {
    if fields == [] then []
    else
      var init, f := ListedParts(record, fields[..|fields| - 1]), fields[|fields| - 1];
      match Get(record, f)
      case Some(v) => if Truthy(v) then init + [FieldText(v)] else init
      case None => init
  }

  /** Whether a value takes part in the fallback: `isinstance(value, (str, int, float))`,
      which a bool passes as a subclass of int. */
  predicate Scalar(v: Json)
  {
    v.JStr? || v.JInt? || v.JFloat? || v.JBool?
  }

  /** The fallback parts: every scalar value whose key is not "id", in the
      record's own order. */
  function FallbackParts(record: Object): (r: seq<string>)
    ensures |r| <= |record|
  {
    if record == [] then []
    else
      var init, last := FallbackParts(record[..|record| - 1]), record[|record| - 1];
      if last.0 != "id" && Scalar(last.1) then init + [Str(last.1)] else init
  }

  /** Which of `fields` contribute: present in the record with a truthy value. */
  function ListedKeep(record: Object, fields: seq<string>): (keep: seq<bool>)
    ensures |keep| == |fields|
  {
    seq(|fields|, i requires 0 <= i < |fields| => Get(record, fields[i]).Some? && Truthy(Get(record, fields[i]).value))
  }

  lemma ListedKeepSnoc(record: Object, fields: seq<string>)
    requires fields != []
    ensures var f := fields[|fields| - 1];
            ListedKeep(record, fields) ==
              ListedKeep(record, fields[..|fields| - 1]) + [Get(record, f).Some? && Truthy(Get(record, f).value)]
  {
  }

  /** What each of `fields` would contribute, were it kept. */
  function ListedVals(record: Object, fields: seq<string>): (vals: seq<string>)
    ensures |vals| == |fields|
  {
    seq(|fields|, i requires 0 <= i < |fields| =>
      match Get(record, fields[i]) case Some(v) => FieldText(v) case None => "")
  }

  lemma {:induction false} ListedPartsPicks(record: Object, fields: seq<string>)
    ensures Picks(ListedParts(record, fields), ListedVals(record, fields), ListedKeep(record, fields))
  {
    if fields != [] {
      var init, f := fields[..|fields| - 1], fields[|fields| - 1];
      ListedPartsPicks(record, init);
      var b := Get(record, f).Some? && Truthy(Get(record, f).value);
      var x := match Get(record, f) case Some(v) => FieldText(v) case None => "";
      ListedKeepSnoc(record, fields);
      assert ListedVals(record, fields) == ListedVals(record, init) + [x];
      assert ListedParts(record, fields) == ListedParts(record, init) + (if b then [x] else []);
      PicksSnoc(ListedParts(record, init), ListedVals(record, init), ListedKeep(record, init), b, x);
    }
  }

  /** The listed parts are the texts of exactly the present, truthy fields,
      in field order. */
  lemma ListedPartsSpec(record: Object, fields: seq<string>)
    ensures var pos := Positions(ListedKeep(record, fields));
            Enumerates(pos, ListedKeep(record, fields)) &&
            |ListedParts(record, fields)| == |pos| &&
            forall j :: 0 <= j < |pos| ==>
              (pos[j] < |fields| && Get(record, fields[pos[j]]).Some? &&
               ListedParts(record, fields)[j] == FieldText(Get(record, fields[pos[j]]).value))
  {
    var keep := ListedKeep(record, fields);
    PositionsSpec(keep);
    ListedPartsPicks(record, fields);
    var pos := Positions(keep);
    forall j | 0 <= j < |pos|
      ensures pos[j] < |fields| && Get(record, fields[pos[j]]).Some? &&
              ListedParts(record, fields)[j] == FieldText(Get(record, fields[pos[j]]).value)
    {
      assert keep[pos[j]];
    }
  }

  /** Which entries of a record take part in the fallback. */
  function FallbackKeep(record: Object): (keep: seq<bool>)
    ensures |keep| == |record|
  {
    seq(|record|, i requires 0 <= i < |record| => record[i].0 != "id" && Scalar(record[i].1))
  }

  lemma FallbackKeepSnoc(record: Object)
    requires record != []
    ensures var e := record[|record| - 1];
            FallbackKeep(record) == FallbackKeep(record[..|record| - 1]) + [e.0 != "id" && Scalar(e.1)]
  {
  }

  /** What each entry of a record would contribute, were it kept. */
  function FallbackVals(record: Object): (vals: seq<string>)
    ensures |vals| == |record|
  {
    seq(|record|, i requires 0 <= i < |record| => Str(record[i].1))
  }

  lemma {:induction false} FallbackPartsPicks(record: Object)
    ensures Picks(FallbackParts(record), FallbackVals(record), FallbackKeep(record))
  {
    if record != [] {
      var init, e := record[..|record| - 1], record[|record| - 1];
      FallbackPartsPicks(init);
      FallbackKeepSnoc(record);
      assert FallbackVals(record) == FallbackVals(init) + [Str(e.1)];
      PicksSnoc(FallbackParts(init), FallbackVals(init), FallbackKeep(init), e.0 != "id" && Scalar(e.1), Str(e.1));
    }
  }

  /** The fallback parts are `str` of exactly the scalar values whose key is
      not "id", in the record's order. */
  lemma FallbackPartsSpec(record: Object)
    ensures var pos := Positions(FallbackKeep(record));
            Enumerates(pos, FallbackKeep(record)) &&
            |FallbackParts(record)| == |pos| &&
            forall j :: 0 <= j < |pos| ==> pos[j] < |record| && FallbackParts(record)[j] == Str(record[pos[j]].1)
  {
    PositionsSpec(FallbackKeep(record));
    FallbackPartsPicks(record);
  }

  /** The searchable text of a record: the listed parts, or the fallback
      parts when there are none, joined with spaces and stripped. */
  function Content(record: Object): string
  {
    var listed := ListedParts(record, TextFields);
    Strip(Join(" ", if listed != [] then listed else FallbackParts(record)))
  }

  /** The searchable text never starts or ends with whitespace. */
  lemma ContentStripped(record: Object)
    ensures var c := Content(record); c == [] || (!IsSpace(c[0]) && !IsSpace(c[|c| - 1]))
  {
    var listed := ListedParts(record, TextFields);
    StripSpec(Join(" ", if listed != [] then listed else FallbackParts(record)));
  }

  /** `prepare_content`: the two loops of the source, proved to compute `Content`. */
  method PrepareContent(record: Object) returns (content: string)
    ensures content == Content(record)
  {
    var parts: seq<string> := [];
    for i := 0 to |TextFields|
      invariant parts == ListedParts(record, TextFields[..i])
    {
      assert TextFields[..i + 1][..i] == TextFields[..i];
      var value := Get(record, TextFields[i]);
      if value.Some? && Truthy(value.value) {
        parts := parts + [FieldText(value.value)];
      }
    }
    assert TextFields[..|TextFields|] == TextFields;
    if parts == [] {
      for i := 0 to |record|
        invariant parts == FallbackParts(record[..i])
      {
        assert record[..i + 1][..i] == record[..i];
        var (key, value) := record[i];
        if key != "id" && Scalar(value) {
          parts := parts + [Str(value)];
        }
      }
      assert record[..|record|] == record;
    }
    content := Strip(Join(" ", parts));
  }

  /** A present, truthy text field makes the listed parts non-empty, and only then. */
  lemma {:induction false} ListedPartsEmpty(record: Object, fields: seq<string>)
    ensures ListedParts(record, fields) == [] <==>
              forall k :: 0 <= k < |fields| ==> Get(record, fields[k]).None? || !Truthy(Get(record, fields[k]).value)
  {
    if fields != [] {
      var init := fields[..|fields| - 1];
      ListedPartsEmpty(record, init);
      assert forall k :: 0 <= k < |init| ==> init[k] == fields[k];
    }
  }

  /** `record` without its entries for `key`. */
  function Without(record: Object, key: string): (r: Object)
    ensures |r| <= |record|
    ensures forall j :: 0 <= j < |r| ==> r[j].0 != key
  {
    if record == [] then []
    else
      var init, last := Without(record[..|record| - 1], key), record[|record| - 1];
      if last.0 == key then init else init + [last]
  }

  lemma {:induction false} GetWithout(record: Object, key: string, other: string)
    requires other != key
    ensures Get(Without(record, key), other) == Get(record, other)
  {
    if record != [] {
      var init, last := record[..|record| - 1], record[|record| - 1];
      assert record == init + [last];
      GetWithout(init, key, other);
      GetAppend(init, last, other);
      if last.0 != key {
        GetAppend(Without(init, key), last, other);
      }
    }
  }

  lemma {:induction false} GetAppend(d: Object, e: (string, Json), key: string)
    ensures Get(d + [e], key) == if Get(d, key).Some? then Get(d, key) else if e.0 == key then Some(e.1) else None
  {
    if d != [] {
      assert (d + [e])[1..] == d[1..] + [e];
      GetAppend(d[1..], e, key);
    }
  }

  lemma {:induction false} ListedWithout(record: Object, fields: seq<string>, key: string)
    requires key !in fields
    ensures ListedParts(Without(record, key), fields) == ListedParts(record, fields)
  {
    if fields != [] {
      ListedWithout(record, fields[..|fields| - 1], key);
      GetWithout(record, key, fields[|fields| - 1]);
    }
  }

  lemma {:induction false} FallbackWithoutId(record: Object)
    ensures FallbackParts(Without(record, "id")) == FallbackParts(record)
  {
    if record != [] {
      var init, last := record[..|record| - 1], record[|record| - 1];
      FallbackWithoutId(init);
      if last.0 != "id" {
        var w := Without(init, "id");
        assert (w + [last])[..|w + [last]| - 1] == w;
      }
    }
  }

  /** The record's own "id" never contributes to its searchable text. */
  lemma ContentIgnoresId(record: Object)
    ensures Content(Without(record, "id")) == Content(record)
  {
    ListedWithout(record, TextFields, "id");
    FallbackWithoutId(record);
  }

  /** The fallback is used only when no text field is present and truthy. */
  lemma ContentFromTextFields(record: Object)
    requires exists k :: 0 <= k < |TextFields| && Get(record, TextFields[k]).Some? && Truthy(Get(record, TextFields[k]).value)
    ensures Content(record) == Strip(Join(" ", ListedParts(record, TextFields)))
    ensures ListedParts(record, TextFields) != []
  {
    ListedPartsEmpty(record, TextFields);
  }

  /** An empty record has empty content, so `load_into_database` skips it. */
  lemma EmptyRecordContent()
    ensures Content([]) == ""
  {
    ListedPartsEmpty([], TextFields);
  }

  // ------------------------------------------------------- load_json_files

  predicate EndsWith(s: string, suffix: string)
  {
    |suffix| <= |s| && s[|s| - |suffix|..] == suffix
  }

  /** The records one file contributes: a top-level `{"data": [...]}` is
      unwrapped; a list gives its items and anything else is one record. */
  function Normalize(data: Json): (r: seq<Json>)
    ensures data.JList? ==> r == data.items
    ensures !data.JList? && !data.JObj? ==> r == [data]
  {
    var unwrapped :=
      if data.JObj? && HasKey(data.fields, "data") && GetOr(data.fields, "data", JNull).JList?
      then GetOr(data.fields, "data", JNull) else data;
    if unwrapped.JList? then unwrapped.items else [unwrapped]
  }

  /** All records of a listing, file by file: files not named `*.json` and
      files that failed to load contribute nothing. */
  function Records(files: seq<(string, Option<Json>)>): seq<Json>
  {
    if files == [] then []
    else
      var init, last := Records(files[..|files| - 1]), files[|files| - 1];
      if EndsWith(last.0, ".json") && last.1.Some? then init + Normalize(last.1.value) else init
  }

  /** `load_json_files` over a listing (an absent folder is the empty listing). */
  method LoadJsonFiles(files: seq<(string, Option<Json>)>) returns (all: seq<Json>)
    ensures all == Records(files)
  {
    all := [];
    for i := 0 to |files|
      invariant all == Records(files[..i])
    {
      assert files[..i + 1][..i] == files[..i];
      var (name, data) := files[i];
      if EndsWith(name, ".json") && data.Some? {
        var d := data.value;
        if d.JObj? && HasKey(d.fields, "data") && GetOr(d.fields, "data", JNull).JList? {
          d := GetOr(d.fields, "data", JNull);
        }
        if d.JList? {
          all := all + d.items;
        } else {
          all := all + [d];
        }
      }
    }
    assert files[..|files|] == files;
  }

  /** Loading is file by file: the records of two listings are the records of each, in order. */
  lemma {:induction false} RecordsAppend(a: seq<(string, Option<Json>)>, b: seq<(string, Option<Json>)>)
    ensures Records(a + b) == Records(a) + Records(b)
  {
    if b != [] {
      var init, last := b[..|b| - 1], b[|b| - 1];
      assert (a + b)[..|a + b| - 1] == a + init;
      assert (a + b)[|a + b| - 1] == last;
      RecordsAppend(a, init);
      var more := if EndsWith(last.0, ".json") && last.1.Some? then Normalize(last.1.value) else [];
      assert Records(b) == Records(init) + more;
      assert Records(a + b) == Records(a + init) + more;
      assert Records(a) + Records(init) + more == Records(a) + (Records(init) + more);
    } else {
      assert a + b == a;
    }
  }

  /** `{"data": [...]}` contributes its items; any other object is one record. */
  lemma NormalizeObject(fields: Object)
    ensures (HasKey(fields, "data") && Get(fields, "data").value.JList?) ==> Normalize(JObj(fields)) == Get(fields, "data").value.items
    ensures !(HasKey(fields, "data") && Get(fields, "data").value.JList?) ==> Normalize(JObj(fields)) == [JObj(fields)]
  {
  }

  // ----------------------------------------------------- load_into_database

  /** One `db.insert_record(record_id, content, json.dumps(record))` call. */
  datatype Insert = Insert(id: Json, content: string, record: Json)

  /** `record.get('id', f"record_{idx}")`. */
  function RecordId(idx: nat, record: Object): Json
  {
    GetOr(record, "id", JStr("record_" + Decimal(idx)))
  }

  /** The position of the first record that is not a dict, where
      `record.get` raises AttributeError; `|records|` when there is none. */
  function FirstNonObject(records: seq<Json>): (n: nat)
    ensures n <= |records|
  {
    if records == [] || !records[0].JObj? then 0
    else 1 + FirstNonObject(records[1..])
  }

  /** Every record before the first non-dict is a dict, and the one there is not. */
  lemma {:induction false} FirstNonObjectSpec(records: seq<Json>)
    ensures var n := FirstNonObject(records);
            (forall j :: 0 <= j < n ==> records[j].JObj?) && (n < |records| ==> !records[n].JObj?)
  {
    if records != [] && records[0].JObj? {
      FirstNonObjectSpec(records[1..]);
      assert forall j :: 1 <= j < |records| ==> records[1..][j - 1] == records[j];
    }
  }

  /** Walking the records in order, the position reached is the first
      non-dict exactly when the record there is not a dict. */
  lemma FirstNonObjectStep(records: seq<Json>, idx: nat)
    requires idx < |records| && idx <= FirstNonObject(records)
    ensures records[idx].JObj? <==> idx < FirstNonObject(records)
  {
    FirstNonObjectSpec(records);
  }

  /** The insert a record at position `idx` leads to: none when it is not a
      dict or its content is empty. */
  function InsertFor(idx: nat, record: Json): (r: seq<Insert>)
    ensures |r| <= 1
  {
    if !record.JObj? then []
    else
      var content := Content(record.fields);
      if content == "" then [] else [Insert(RecordId(idx, record.fields), content, record)]
  }

  /** The inserts for the first `n` records, position by position. */
  function Inserts(records: seq<Json>, n: nat): (r: seq<Insert>)
    requires n <= |records|
    ensures |r| <= n
  {
    if n == 0 then []
    else Inserts(records, n - 1) + InsertFor(n - 1, records[n - 1])
  }

  /** Which of the first `n` records lead to an insert: dicts with some content. */
  function InsertKeep(records: seq<Json>, n: nat): (keep: seq<bool>)
    requires n <= |records|
    ensures |keep| == n
  {
    seq(n, i requires 0 <= i < n => records[i].JObj? && Content(records[i].fields) != "")
  }

  lemma InsertKeepSnoc(records: seq<Json>, n: nat)
    requires 0 < n <= |records|
    ensures var r := records[n - 1];
            InsertKeep(records, n) == InsertKeep(records, n - 1) + [r.JObj? && Content(r.fields) != ""]
  {
  }

  /** The insert each of the first `n` records would lead to, were it kept. */
  function InsertVals(records: seq<Json>, n: nat): (vals: seq<Insert>)
    requires n <= |records|
    ensures |vals| == n
  {
    seq(n, i requires 0 <= i < n => InsertVal(i, records[i]))
  }

  /** The insert a dict at position `idx` leads to when its content is not empty. */
  function InsertVal(idx: nat, record: Json): Insert
  {
    var fields := if record.JObj? then record.fields else [];
    Insert(RecordId(idx, fields), Content(fields), record)
  }

  lemma InsertValsSnoc(records: seq<Json>, n: nat)
    requires 0 < n <= |records|
    ensures InsertVals(records, n) == InsertVals(records, n - 1) + [InsertVal(n - 1, records[n - 1])]
  {
  }

  lemma InsertForVal(idx: nat, record: Json)
    ensures InsertFor(idx, record) ==
              if record.JObj? && Content(record.fields) != "" then [InsertVal(idx, record)] else []
  {
  }

  lemma {:induction false} InsertsPicks(records: seq<Json>, n: nat)
    requires n <= |records|
    ensures Picks(Inserts(records, n), InsertVals(records, n), InsertKeep(records, n))
  {
    if n > 0 {
      InsertsPicks(records, n - 1);
      var r := records[n - 1];
      InsertKeepSnoc(records, n);
      InsertValsSnoc(records, n);
      InsertForVal(n - 1, r);
      PicksSnoc(Inserts(records, n - 1), InsertVals(records, n - 1), InsertKeep(records, n - 1),
                r.JObj? && Content(r.fields) != "", InsertVal(n - 1, r));
    }
  }

  /** The inserts for the first `n` records are those of exactly the dicts
      with some content, in record order, each under its own `id` or the
      default id of its position. */
  lemma InsertsSpec(records: seq<Json>, n: nat)
    requires n <= |records|
    ensures var pos := Positions(InsertKeep(records, n));
            Enumerates(pos, InsertKeep(records, n)) &&
            |Inserts(records, n)| == |pos| &&
            forall j :: 0 <= j < |pos| ==>
              (pos[j] < n && records[pos[j]].JObj? &&
               Inserts(records, n)[j] ==
                 Insert(RecordId(pos[j], records[pos[j]].fields), Content(records[pos[j]].fields), records[pos[j]]))
  {
    var keep := InsertKeep(records, n);
    PositionsSpec(keep);
    InsertsPicks(records, n);
    var pos := Positions(keep);
    forall j | 0 <= j < |pos|
      ensures pos[j] < n && records[pos[j]].JObj? &&
              Inserts(records, n)[j] ==
                Insert(RecordId(pos[j], records[pos[j]].fields), Content(records[pos[j]].fields), records[pos[j]])
    {
      assert keep[pos[j]];
    }
  }

  /** How many of the inserts report success. */
  function Succeeded(made: seq<Insert>, insert: Insert -> bool): (n: nat)
    ensures n <= |made|
  {
    if made == [] then 0
    else
      var last := made[|made| - 1];
      Succeeded(made[..|made| - 1], insert) + (if insert(last) then 1 else 0)
  }

  lemma SucceededSnoc(made: seq<Insert>, call: Insert, insert: Insert -> bool)
    ensures Succeeded(made + [call], insert) == Succeeded(made, insert) + (if insert(call) then 1 else 0)
  {
    assert (made + [call])[..|made|] == made;
  }

  /** Counting successes over two runs of calls adds up. */
  lemma {:induction false} SucceededAppend(made: seq<Insert>, step: seq<Insert>, insert: Insert -> bool)
    ensures Succeeded(made + step, insert) == Succeeded(made, insert) + Succeeded(step, insert)
  {
    if step == [] {
      assert made + step == made;
    } else {
      var init, call := step[..|step| - 1], step[|step| - 1];
      SucceededAppend(made, init, insert);
      assert made + step == (made + init) + [call];
      assert step == init + [call];
      SucceededSnoc(made + init, call, insert);
      SucceededSnoc(init, call, insert);
    }
  }

  /** Which insert calls report success, call by call. */
  function SuccessKeep(made: seq<Insert>, insert: Insert -> bool): (keep: seq<bool>)
    ensures |keep| == |made|
  {
    seq(|made|, j requires 0 <= j < |made| => insert(made[j]))
  }

  /** The count is the number of calls whose insert returned True: one for
      each position listed by `Positions`, which lists exactly those calls. */
  lemma {:induction false} SucceededCounts(made: seq<Insert>, insert: Insert -> bool)
    ensures Succeeded(made, insert) == |Positions(SuccessKeep(made, insert))|
    ensures Enumerates(Positions(SuccessKeep(made, insert)), SuccessKeep(made, insert))
  {
    PositionsSpec(SuccessKeep(made, insert));
    if made != [] {
      var init, call := made[..|made| - 1], made[|made| - 1];
      SucceededCounts(init, insert);
      assert SuccessKeep(made, insert) == SuccessKeep(init, insert) + [insert(call)];
      PositionsSnoc(SuccessKeep(init, insert), insert(call));
    }
  }

  /** One pass of the loop of `load_into_database` over a dict record: the
      insert call it makes, if any, and whether that call succeeded. */
  method InsertRecord(idx: nat, record: Json, insert: Insert -> bool)
    returns (step: seq<Insert>, loaded: nat)
    requires record.JObj?
    ensures step == InsertFor(idx, record)
    ensures loaded == Succeeded(step, insert)
  {
    var recordId := RecordId(idx, record.fields);
    var content := PrepareContent(record.fields);
    if content != "" {
      var call := Insert(recordId, content, record);
      SucceededSnoc([], call, insert);
      assert [] + [call] == [call];
      loaded := if insert(call) then 1 else 0;
      step := [call];
    } else {
      step, loaded := [], 0;
    }
  }

  /** `load_into_database`: every insert call in order, up to the first
      record that is not a dict; then the count of successful inserts, or
      AttributeError when such a record was reached. `insert` stands for
      `db.insert_record`. */
  method LoadIntoDatabase(files: seq<(string, Option<Json>)>, insert: Insert -> bool)
    returns (r: Result<nat>, made: seq<Insert>)
    ensures var records := Records(files);
            made == Inserts(records, FirstNonObject(records)) &&
            r == if FirstNonObject(records) == |records| then Ok(Succeeded(made, insert)) else Err(AttributeError)
  {
    var records := LoadJsonFiles(files);
    made := [];
    if records == [] {
      return Ok(0), made;
    }
    var loaded := 0;
    for idx := 0 to |records|
      invariant idx <= FirstNonObject(records)
      invariant made == Inserts(records, idx)
      invariant loaded == Succeeded(made, insert)
    {
      var record := records[idx];
      FirstNonObjectStep(records, idx);
      if !record.JObj? {
        return Err(AttributeError), made;
      }
      var step, ok := InsertRecord(idx, record, insert);
      SucceededAppend(made, step, insert);
      made, loaded := made + step, loaded + ok;
    }
    return Ok(loaded), made;
  }

  /** The count is at most the number of records loaded from the files. */
  lemma LoadedAtMostRecords(files: seq<(string, Option<Json>)>, insert: Insert -> bool)
    ensures var records := Records(files);
            Succeeded(Inserts(records, FirstNonObject(records)), insert) <= |records|
  {
  }

  /** Every insert carries non-empty content: records whose content is empty are skipped. */
  lemma {:induction false} InsertsHaveContent(records: seq<Json>, n: nat)
    requires n <= |records|
    ensures forall j :: 0 <= j < |Inserts(records, n)| ==> Inserts(records, n)[j].content != ""
  {
    if n > 0 {
      InsertsHaveContent(records, n - 1);
    }
  }

  /** A dict with some content leads to exactly one insert, under its own
      "id" or `record_<position>`. */
  lemma InsertForContent(idx: nat, record: Json)
    requires record.JObj? && Content(record.fields) != ""
    ensures InsertFor(idx, record) == [Insert(RecordId(idx, record.fields), Content(record.fields), record)]
  {
  }

  /** With every record a dict with some content, there is one insert per record. */
  lemma {:induction false} InsertsLength(records: seq<Json>, n: nat)
    requires n <= |records|
    requires forall j :: 0 <= j < n ==> records[j].JObj? && Content(records[j].fields) != ""
    ensures |Inserts(records, n)| == n
  {
    if n > 0 {
      InsertsLength(records, n - 1);
      InsertForContent(n - 1, records[n - 1]);
    }
  }

  /** Going further through the records only appends inserts. */
  lemma {:induction false} InsertsPrefix(records: seq<Json>, m: nat, n: nat)
    requires m <= n <= |records|
    ensures |Inserts(records, m)| <= |Inserts(records, n)|
    ensures Inserts(records, n)[..|Inserts(records, m)|] == Inserts(records, m)
  {
    if m < n {
      InsertsPrefix(records, m, n - 1);
      var a, b := Inserts(records, m), Inserts(records, n - 1);
      assert Inserts(records, n) == b + InsertFor(n - 1, records[n - 1]);
      assert (b + InsertFor(n - 1, records[n - 1]))[..|a|] == b[..|a|];
    }
  }

  /** When every record is a dict with some content, each record is
      inserted once, in order, under its own "id" or `record_<position>`. */
  lemma EveryRecordInserted(records: seq<Json>, n: nat)
    requires n <= |records|
    requires forall j :: 0 <= j < n ==> records[j].JObj? && Content(records[j].fields) != ""
    ensures |Inserts(records, n)| == n
    ensures forall j :: 0 <= j < n ==>
              Inserts(records, n)[j] == Insert(RecordId(j, records[j].fields), Content(records[j].fields), records[j])
  {
    InsertsLength(records, n);
    forall j | 0 <= j < n
      ensures Inserts(records, n)[j] == Insert(RecordId(j, records[j].fields), Content(records[j].fields), records[j])
    {
      InsertedAt(records, n, j);
    }
  }

  lemma InsertedAt(records: seq<Json>, n: nat, j: nat)
    requires j < n <= |records|
    requires forall k :: 0 <= k < n ==> records[k].JObj? && Content(records[k].fields) != ""
    ensures |Inserts(records, n)| == n
    ensures Inserts(records, n)[j] == Insert(RecordId(j, records[j].fields), Content(records[j].fields), records[j])
  {
    InsertsLength(records, n);
    InsertsLength(records, j);
    InsertsPrefix(records, j + 1, n);
    InsertForContent(j, records[j]);
    assert Inserts(records, j + 1) == Inserts(records, j) + InsertFor(j, records[j]);
  }

  /** With every record a dict with some content, loading inserts each one
      and reports how many inserts succeeded. */
  lemma AllRecordsLoaded(records: seq<Json>)
    requires forall j :: 0 <= j < |records| ==> records[j].JObj? && Content(records[j].fields) != ""
    ensures FirstNonObject(records) == |records|
    ensures |Inserts(records, |records|)| == |records|
  {
    FirstNonObjectSpec(records);
    EveryRecordInserted(records, |records|);
  }

  /** A skipped record still uses up its position: the default id counts it. */
  lemma SkippedRecordKeepsPosition(records: seq<Json>, ada: Object)
    requires ada == [("name", JStr("Ada"))] && records == [JObj([]), JObj(ada)]
    ensures Inserts(records, 2) == [Insert(JStr("record_1"), "Ada", JObj(ada))]
  {
    assert "record_" + "1" == "record_1";
    EmptyRecordContent();
    assert InsertFor(0, records[0]) == [];
    assert Inserts(records, 1) == [];
    AdaListed(ada);
    assert Content(ada) == "Ada";
    assert Decimal(1) == "1";
    GetAbsent(ada, "id");
    assert RecordId(1, ada) == JStr("record_1");
    InsertForContent(1, records[1]);
    assert Inserts(records, 2) == [] + InsertFor(1, records[1]);
  }

  /** Fields the record lacks add no part. */
  lemma {:induction false} ListedPartsAbsent(record: Object, fields: seq<string>, extra: seq<string>)
    requires forall k :: 0 <= k < |extra| ==> !HasKey(record, extra[k])
    ensures ListedParts(record, fields + extra) == ListedParts(record, fields)
  {
    if extra != [] {
      var init := extra[..|extra| - 1];
      assert (fields + extra)[..|fields + extra| - 1] == fields + init;
      assert (fields + extra)[|fields + extra| - 1] == extra[|extra| - 1];
      assert Get(record, extra[|extra| - 1]).None?;
      ListedPartsAbsent(record, fields, init);
    } else {
      assert fields + extra == fields;
    }
  }

  lemma AdaListed(ada: Object)
    requires ada == [("name", JStr("Ada"))]
    ensures ListedParts(ada, TextFields) == ["Ada"]
  {
    assert TextFields == TextFields[..2] + TextFields[2..];
    forall k | 0 <= k < |TextFields[2..]| ensures !HasKey(ada, TextFields[2..][k]) {
      GetAbsent(ada, TextFields[2..][k]);
    }
    ListedPartsAbsent(ada, TextFields[..2], TextFields[2..]);
    var two := TextFields[..2];
    GetAbsent(ada, "title");
    assert two[..1] == ["title"];
    assert ["title"][..0] == [];
  }
}

=== FILE: embedding.dfy ===
/** The vector index of embedding.py: `EmbeddingManager` with its `index`
    and `id_mapping` fields. The sentence model, L2 normalisation and the
    FAISS inner-product search are one opaque function, `rawSearch`, from
    the built index, the query text and k to the (position, score) pairs
    FAISS returns; this module models what the class does around it. */
module Embedding {
  import opened PyValues

  /** A built `IndexFlatIP`: its dimension and the vectors added to it. */
  datatype FlatIndex = FlatIndex(dimension: nat, vectors: seq<seq<real>>)

  /** What a file on disk holds: a FAISS index, a pickled id list, or
      something neither reader accepts. */
  datatype Artifact = IndexFile(index: FlatIndex) | MappingFile(ids: seq<string>) | OtherFile

  type Disk = map<string, Artifact>

  type Hits = seq<(string, real)>

  /** Python's `s[i]`, negative positions counting from the end; None is IndexError. */
  function PyIndex<T>(s: seq<T>, i: int): Option<T>
  {
    if 0 <= i < |s| then Some(s[i])
    else if -|s| <= i < 0 then Some(s[|s| + i])
    else None
  }

  /** The post-processing loop of `search`: keep a raw pair when its position
      is below `len(id_mapping)` and translate the position with Python indexing. */
  function MapHits(mapping: seq<string>, raw: seq<(int, real)>): (r: Result<Hits>)
    ensures r.Ok? ==> |r.value| <= |raw|
    ensures r.Ok? ==> forall j :: 0 <= j < |r.value| ==> r.value[j].0 in mapping
    ensures r.Err? <==> exists j :: 0 <= j < |raw| && raw[j].0 < -|mapping|
    ensures r.Err? ==> r.error == IndexError
  {
    if raw == [] then Ok([])
    else
      var prefix, last := MapHits(mapping, raw[..|raw| - 1]), raw[|raw| - 1];
      assert forall j :: 0 <= j < |raw| - 1 ==> raw[..|raw| - 1][j] == raw[j];
      if prefix.Err? then prefix
      else if last.0 < |mapping| then
        match PyIndex(mapping, last.0)
        case None => Err(IndexError)
        case Some(id) => Ok(prefix.value + [(id, last.1)])
      else prefix
  }

  /** The pairs whose position passes the `idx < len(id_mapping)` test, in order. */
  function Passing(mapping: seq<string>, raw: seq<(int, real)>): (r: seq<(int, real)>)
    ensures forall j :: 0 <= j < |r| ==> r[j] in raw && r[j].0 < |mapping|
  {
    if raw == [] then []
    else if raw[0].0 < |mapping| then [raw[0]] + Passing(mapping, raw[1..])
    else Passing(mapping, raw[1..])
  }

  lemma {:induction false} PassingAppend(mapping: seq<string>, raw: seq<(int, real)>, x: (int, real))
    ensures Passing(mapping, raw + [x]) == Passing(mapping, raw) + (if x.0 < |mapping| then [x] else [])
  {
    if raw != [] {
      assert (raw + [x])[1..] == raw[1..] + [x];
      PassingAppend(mapping, raw[1..], x);
    }
  }

  /** Which raw pairs pass the `idx < len(id_mapping)` test, position by position. */
  function PassKeep(mapping: seq<string>, raw: seq<(int, real)>): (keep: seq<bool>)
    ensures |keep| == |raw|
  {
    seq(|raw|, i requires 0 <= i < |raw| => raw[i].0 < |mapping|)
  }

  lemma {:induction false} PassingPicks(mapping: seq<string>, raw: seq<(int, real)>)
    ensures Picks(Passing(mapping, raw), raw, PassKeep(mapping, raw))
  {
    if raw != [] {
      var init, x := raw[..|raw| - 1], raw[|raw| - 1];
      assert raw == init + [x];
      PassingPicks(mapping, init);
      PassingAppend(mapping, init, x);
      assert PassKeep(mapping, raw) == PassKeep(mapping, init) + [x.0 < |mapping|];
      PicksSnoc(Passing(mapping, init), init, PassKeep(mapping, init), x.0 < |mapping|, x);
    }
  }

  /** The passing pairs are the raw pairs at exactly the positions that pass
      the bound test, in FAISS's order, none left out and none repeated. */
  lemma PassingSpec(mapping: seq<string>, raw: seq<(int, real)>)
    ensures var pos := Positions(PassKeep(mapping, raw));
            Enumerates(pos, PassKeep(mapping, raw)) &&
            |Passing(mapping, raw)| == |pos| &&
            forall j :: 0 <= j < |pos| ==> pos[j] < |raw| && Passing(mapping, raw)[j] == raw[pos[j]]
  {
    PositionsSpec(PassKeep(mapping, raw));
    PassingPicks(mapping, raw);
  }

  /** With no position below `-len(id_mapping)`, `search` returns exactly the
      passing pairs, in FAISS's order, each position translated through
      `id_mapping` (a padding position of -1 therefore selects the last id). */
  lemma {:induction false} MapHitsKeepsPassing(mapping: seq<string>, raw: seq<(int, real)>)
    requires forall j :: 0 <= j < |raw| ==> raw[j].0 >= -|mapping|
    ensures var ps := Passing(mapping, raw);
            MapHits(mapping, raw).Ok? &&
            |MapHits(mapping, raw).value| == |ps| &&
            forall j :: 0 <= j < |ps| ==>
              MapHits(mapping, raw).value[j] == (PyIndex(mapping, ps[j].0).value, ps[j].1)
  {
    if raw != [] {
      var init, last := raw[..|raw| - 1], raw[|raw| - 1];
      assert raw == init + [last];
      MapHitsKeepsPassing(mapping, init);
      PassingAppend(mapping, init, last);
    }
  }

  /** FAISS pads a short answer with position -1; `search` turns it into the last id. */
  lemma PaddingSelectsLastId()
    ensures MapHits(["a", "b"], [(0, 0.75), (-1, 0.0)]) == Ok([("a", 0.75), ("b", 0.0)])
  {
    var m: seq<string> := ["a", "b"];
    var one: seq<(int, real)> := [(0, 0.75)];
    var two: seq<(int, real)> := [(0, 0.75), (-1, 0.0)];
    var hits: Hits := [("a", 0.75)];
    assert one[..|one| - 1] == [];
    assert [] + hits == hits;
    assert MapHits(m, one) == Ok(hits);
    assert two[..|two| - 1] == one;
    assert PyIndex(m, -1) == Some("b");
    assert hits + [("b", 0.0)] == [("a", 0.75), ("b", 0.0)];
  }

  /** The padding position -1 on an empty mapping passes the bound test and raises IndexError. */
  lemma PaddingOnEmptyMappingRaises()
    ensures MapHits([], [(-1, 0.0)]) == Err(IndexError)
  {
  }

  /** What `load_index` leaves behind: its return value (or exception) and the
      new `index` and `id_mapping`, given the old ones. */
  function LoadOutcome(disk: Disk, indexPath: string, mappingPath: string,
                       index: Option<FlatIndex>, mapping: seq<string>): (r: (Result<bool>, Option<FlatIndex>, seq<string>))
    ensures r.0 == Ok(false) <==> !(indexPath in disk && mappingPath in disk)
    ensures r.0 == Ok(false) ==> r.1 == index && r.2 == mapping
    ensures r.0 == Ok(true) ==> r.1.Some? && disk[indexPath] == IndexFile(r.1.value)
                                && disk[mappingPath] == MappingFile(r.2)
  {
    if !(indexPath in disk && mappingPath in disk) then (Ok(false), index, mapping)
    else
      match disk[indexPath]
      case IndexFile(ix) =>
        (match disk[mappingPath]
         case MappingFile(ids) => (Ok(true), Some(ix), ids)
         case _ => (Err(UnpicklingError), Some(ix), mapping))
      case _ => (Err(RuntimeError), index, mapping)
  }

  /** The disk after `save_index` wrote the index, then the mapping. */
  function SavedDisk(disk: Disk, indexPath: string, mappingPath: string,
                     index: FlatIndex, mapping: seq<string>): Disk
  {
    disk[indexPath := IndexFile(index)][mappingPath := MappingFile(mapping)]
  }

  /** `search` as a function of the index state. */
  function SearchOver(index: Option<FlatIndex>, mapping: seq<string>,
                      rawSearch: (FlatIndex, string, int) -> seq<(int, real)>,
                      query: string, k: int): Result<Hits>
  {
    if index.None? then Err(ValueError("Index not built yet"))
    else MapHits(mapping, rawSearch(index.value, query, k))
  }

  /** Saving to two distinct paths and loading them back restores the index
      and the mapping together, so every search answers as before. */
  lemma SaveLoadRoundTrip(disk: Disk, indexPath: string, mappingPath: string,
                          index: FlatIndex, mapping: seq<string>,
                          before: Option<FlatIndex>, beforeMapping: seq<string>,
                          rawSearch: (FlatIndex, string, int) -> seq<(int, real)>)
    requires indexPath != mappingPath
    ensures var r := LoadOutcome(SavedDisk(disk, indexPath, mappingPath, index, mapping),
                                 indexPath, mappingPath, before, beforeMapping);
            r == (Ok(true), Some(index), mapping) &&
            forall q, k :: SearchOver(r.1, r.2, rawSearch, q, k) == SearchOver(Some(index), mapping, rawSearch, q, k)
  {
  }

  /** Saving both artifacts to one path leaves only the mapping there, and
      loading it back fails in the index reader. */
  lemma SaveToOnePathDoesNotLoad(disk: Disk, path: string, index: FlatIndex, mapping: seq<string>,
                                 before: Option<FlatIndex>, beforeMapping: seq<string>)
    ensures LoadOutcome(SavedDisk(disk, path, path, index, mapping), path, path, before, beforeMapping)
            == (Err(RuntimeError), before, beforeMapping)
  {
  }

  class EmbeddingManager {
    const dimension: nat
    /** Encode the query, normalise it and ask FAISS for k neighbours. */
    const rawSearch: (FlatIndex, string, int) -> seq<(int, real)>
    var index: Option<FlatIndex>
    /** `id_mapping[i]` is the record id of the vector at position i. */
    var idMapping: seq<string>

    constructor (dimension: nat, rawSearch: (FlatIndex, string, int) -> seq<(int, real)>)
      ensures this.dimension == dimension && this.rawSearch == rawSearch
      ensures index == None && idMapping == []
    {
      this.dimension := dimension;
      this.rawSearch := rawSearch;
      index := None;
      idMapping := [];
    }

    /** The answer `search(query, k)` gives in the current state. */
    function SearchResult(query: string, k: int): Result<Hits>
      reads this
    {
      SearchOver(index, idMapping, rawSearch, query, k)
    }

    /** `build_index`: a fresh flat index over the given vectors, and the
        given ids as the mapping. Nothing checks that the two have the same length. */
    method BuildIndex(embeddings: seq<seq<real>>, recordIds: seq<string>)
      modifies this
      ensures index == Some(FlatIndex(dimension, embeddings))
      ensures idMapping == recordIds
    {
      index := Some(FlatIndex(dimension, embeddings));
      idMapping := recordIds;
    }

    /** `search`: ValueError before any index exists; otherwise the raw
        FAISS answer filtered and translated by `MapHits`. */
    method Search(query: string, k: int) returns (r: Result<Hits>)
      ensures index.None? ==> r == Err(ValueError("Index not built yet"))
      ensures index.Some? ==> r == MapHits(idMapping, rawSearch(index.value, query, k))
    {
      if index.None? {
        return Err(ValueError("Index not built yet"));
      }
      var raw := rawSearch(index.value, query, k);
      var results: Hits := [];
      for i := 0 to |raw|
        invariant MapHits(idMapping, raw[..i]) == Ok(results)
      {
        var (idx, score) := raw[i];
        assert raw[..i + 1][..i] == raw[..i];
        if idx < |idMapping| {
          if idx >= 0 {
            results := results + [(idMapping[idx], score)];
          } else if idx >= -|idMapping| {
            results := results + [(idMapping[|idMapping| + idx], score)];
          } else {
            return Err(IndexError);
          }
        }
      }
      assert raw[..|raw|] == raw;
      return Ok(results);
    }

    /** `save_index`: ValueError without an index; otherwise the disk with
        the index written to `indexPath` and then the mapping to `mappingPath`. */
    method SaveIndex(disk: Disk, indexPath: string, mappingPath: string) returns (r: Result<Disk>)
      ensures index.None? ==> r == Err(ValueError("No index to save"))
      ensures index.Some? ==> r == Ok(SavedDisk(disk, indexPath, mappingPath, index.value, idMapping))
    {
      if index.None? {
        return Err(ValueError("No index to save"));
      }
      var written := disk[indexPath := IndexFile(index.value)];
      written := written[mappingPath := MappingFile(idMapping)];
      return Ok(written);
    }

    /** `load_index`: False and no change unless both files exist; otherwise
        the index is read and assigned first, then the mapping. */
    method LoadIndex(disk: Disk, indexPath: string, mappingPath: string) returns (r: Result<bool>)
      modifies this
      ensures (r, index, idMapping) == LoadOutcome(disk, indexPath, mappingPath, old(index), old(idMapping))
    {
      if !(indexPath in disk && mappingPath in disk) {
        return Ok(false);
      }
      if !disk[indexPath].IndexFile? {
        return Err(RuntimeError);
      }
      index := Some(disk[indexPath].index);
      if !disk[mappingPath].MappingFile? {
        return Err(UnpicklingError);
      }
      idMapping := disk[mappingPath].ids;
      return Ok(true);
    }
  }
}

=== FILE: py_values.dfy ===
/** Python values as the pipeline sees them after `json.loads`, and the few
    built-in operations the pipeline applies to them: truthiness, `dict.get`,
    `str()`, `str.split()`, `str.join`, `str.strip()`, `str.lower()` and the
    substring test `pat in s`. */
module PyValues {

  datatype Option<+T> = None | Some(value: T)

  /** The Python exceptions the modelled code can raise. */
  datatype PyError =
    | ValueError(message: string)
    | IndexError
    | TypeError
    | AttributeError
    | RuntimeError
    | UnpicklingError

  datatype Result<+T> = Ok(value: T) | Err(error: PyError)

  /** A decoded JSON value. A float keeps the text Python's `repr` prints for
      it next to its value; objects keep their keys in insertion order, as a
      Python dict does. */
  datatype Json =
    | JNull
    | JBool(b: bool)
    | JInt(i: int)
    | JFloat(x: real, text: string)
    | JStr(s: string)
    | JList(items: seq<Json>)
    | JObj(fields: seq<(string, Json)>)

  type Object = seq<(string, Json)>

  // ---------------------------------------------------------------- dict

  /** `key in d` followed by `d[key]`: the value of the first entry with that key. */
  function Get(d: Object, key: string): (r: Option<Json>)
  {
    if d == [] then None
    else if d[0].0 == key then Some(d[0].1)
    else Get(d[1..], key)
  }

  /** A key is found exactly when some entry has it, and the value found is
      that of the first such entry. */
  lemma {:induction false} GetSpec(d: Object, key: string)
    ensures Get(d, key).Some? <==> exists i :: 0 <= i < |d| && d[i].0 == key
    ensures Get(d, key).Some? ==>
              exists i :: 0 <= i < |d| && d[i] == (key, Get(d, key).value) &&
                          forall j :: 0 <= j < i ==> d[j].0 != key
  {
    if d != [] && d[0].0 != key {
      GetSpec(d[1..], key);
      assert forall i :: 1 <= i < |d| ==> d[i] == d[1..][i - 1];
      if Get(d, key).Some? {
        var i :| 0 <= i < |d[1..]| && d[1..][i] == (key, Get(d, key).value) &&
                 forall j :: 0 <= j < i ==> d[1..][j].0 != key;
        assert d[i + 1] == d[1..][i];
        forall j | 0 <= j < i + 1 ensures d[j].0 != key {
          if j > 0 {
            assert d[j] == d[1..][j - 1];
          }
        }
      }
    }
  }

  /** A key no entry has is not found. */
  lemma GetAbsent(d: Object, key: string)
    requires forall i :: 0 <= i < |d| ==> d[i].0 != key
    ensures Get(d, key) == None
  {
    GetSpec(d, key);
  }

  predicate HasKey(d: Object, key: string)
  {
    Get(d, key).Some?
  }

  /** `d.get(key, default)`; `d.get(key)` is `GetOr(d, key, JNull)`. */
  function GetOr(d: Object, key: string, default: Json): Json
  {
    match Get(d, key)
    case Some(v) => v
    case None => default
  }

  // ---------------------------------------------------------- truthiness

  /** Python's `bool(v)`. */
  predicate Truthy(v: Json)
  {
    match v
    case JNull => false
    case JBool(b) => b
    case JInt(i) => i != 0
    case JFloat(x, _) => x != 0.0
    case JStr(s) => s != ""
    case JList(items) => items != []
    case JObj(fields) => fields != []
  }

  /** Python's `a or b`: the first operand when it is truthy, else the second. */
  function Or(a: Json, b: Json): (r: Json)
    ensures Truthy(r) <==> Truthy(a) || Truthy(b)
    ensures Truthy(a) ==> r == a
    ensures !Truthy(a) ==> r == b
  {
    if Truthy(a) then a else b
  }

  // -------------------------------------------------------------- str()

  function DigitChar(d: nat): char
    requires d < 10
  {
    "0123456789"[d]
  }

  function Digits(n: nat): (r: string)
    ensures r != []
    decreases n
  {
    if n < 10 then [DigitChar(n)] else Digits(n / 10) + [DigitChar(n % 10)]
  }

  /** `str(i)` for an int. */
  function Decimal(i: int): string
  {
    if i < 0 then "-" + Digits(-i) else Digits(i)
  }

  /** One character of a string literal as `repr` writes it, inside quote `q`. */
  function EscapeChar(c: char, q: char): string
  {
    if c == '\\' then "\\\\"
    else if c == q then ['\\', q]
    else if c == '\n' then "\\n"
    else if c == '\r' then "\\r"
    else if c == '\t' then "\\t"
    else [c]
  }

  function Escape(s: string, q: char): string
  {
    if s == [] then [] else EscapeChar(s[0], q) + Escape(s[1..], q)
  }

  /** `repr(s)` for a string: single quotes unless the text holds a single
      quote and no double quote. */
  function ReprString(s: string): string
  {
    var q := if '\'' in s && '"' !in s then '"' else '\'';
    [q] + Escape(s, q) + [q]
  }

  /** `repr(v)`, used by `str()` for the elements of a list or dict. */
  function Repr(v: Json): string
    decreases v, 1
  {
    match v
    case JNull => "None"
    case JBool(b) => if b then "True" else "False"
    case JInt(i) => Decimal(i)
    case JFloat(_, text) => text
    case JStr(s) => ReprString(s)
    case JList(items) => "[" + Join(", ", ReprItems(v, items)) + "]"
    case JObj(fields) => "{" + Join(", ", ReprFields(v, fields)) + "}"
  }

  function ReprItems(ghost parent: Json, items: seq<Json>): seq<string>
    requires forall i :: 0 <= i < |items| ==> items[i] < parent
    decreases parent, 0, |items|
  {
    if items == [] then [] else [Repr(items[0])] + ReprItems(parent, items[1..])
  }

  function ReprFields(ghost parent: Json, fields: seq<(string, Json)>): seq<string>
    requires forall i :: 0 <= i < |fields| ==> fields[i].1 < parent
    decreases parent, 0, |fields|
  {
    if fields == [] then []
    else [ReprString(fields[0].0) + ": " + Repr(fields[0].1)] + ReprFields(parent, fields[1..])
  }

  /** `str(v)`: a string is itself, everything else is its `repr`. */
  function Str(v: Json): (r: string)
    ensures v.JStr? ==> r == v.s
  {
    if v.JStr? then v.s else Repr(v)
  }

  // ------------------------------------------------------------- strings

  /** The characters for which Python's `str.isspace()` holds. */
  predicate IsSpace(c: char)
  {
    c == ' ' || ('\t' <= c <= '\r') || ('\U{001c}' <= c <= '\U{001f}') || c == '\U{0085}'
    || c == '\U{00a0}' || c == '\U{1680}' || ('\U{2000}' <= c <= '\U{200a}')
    || c == '\U{2028}' || c == '\U{2029}' || c == '\U{202f}' || c == '\U{205f}' || c == '\U{3000}'
  }

  /** A word as `str.split()` yields it: non-empty, no whitespace. */
  predicate IsWord(w: string)
  {
    w != [] && forall i :: 0 <= i < |w| ==> !IsSpace(w[i])
  }

  /** `sep.join(parts)`. */
  function Join(sep: string, parts: seq<string>): string
  {
    if |parts| == 0 then ""
    else if |parts| == 1 then parts[0]
    else parts[0] + sep + Join(sep, parts[1..])
  }

  /** Length of the run of non-whitespace characters at the start of `s`. */
  function WordLen(s: string): (n: nat)
    ensures n <= |s|
    ensures forall i :: 0 <= i < n ==> !IsSpace(s[i])
    ensures n == |s| || IsSpace(s[n])
  {
    if s == [] || IsSpace(s[0]) then 0 else 1 + WordLen(s[1..])
  }

  /** `s.split()`: the maximal runs of non-whitespace characters, in order. */
  function Words(s: string): (ws: seq<string>)
    ensures forall k :: 0 <= k < |ws| ==> IsWord(ws[k])
    decreases |s|
  {
    if s == [] then []
    else if IsSpace(s[0]) then Words(s[1..])
    else
      var n := WordLen(s);
      [s[..n]] + Words(s[n..])
  }

  lemma {:induction false} WordLenOfWord(w: string, t: string)
    requires forall i :: 0 <= i < |w| ==> !IsSpace(w[i])
    requires t == [] || IsSpace(t[0])
    ensures WordLen(w + t) == |w|
    decreases |w|
  {
    if w != [] {
      assert (w + t)[1..] == w[1..] + t;
      WordLenOfWord(w[1..], t);
    }
  }

  /** Splitting words re-joined by single spaces gives the words back. */
  lemma {:induction false} WordsOfJoin(ws: seq<string>)
    requires forall k :: 0 <= k < |ws| ==> IsWord(ws[k])
    ensures Words(Join(" ", ws)) == ws
  {
    if |ws| == 1 {
      WordLenOfWord(ws[0], []);
      assert ws[0] + [] == ws[0];
      assert ws[0][|ws[0]|..] == [];
    } else if |ws| > 1 {
      var w, rest := ws[0], Join(" ", ws[1..]);
      var s := w + " " + rest;
      assert Join(" ", ws) == s;
      WordLenOfWord(w, " " + rest);
      assert s == w + (" " + rest);
      assert s[..|w|] == w;
      assert s[|w|..] == " " + rest;
      assert (" " + rest)[1..] == rest;
      WordsOfJoin(ws[1..]);
    }
  }

  /** A word of `s.split()` starts at `p`: a non-whitespace character at the
      start of `s` or right after whitespace. */
  predicate WordStartsAt(s: string, p: int)
  {
    0 <= p < |s| && !IsSpace(s[p]) && (p == 0 || IsSpace(s[p - 1]))
  }

  /** The run of non-whitespace characters starting at `p`, as far as it goes. */
  function WordAt(s: string, p: nat): (w: string)
    requires p <= |s|
    ensures p + |w| <= |s| && w == s[p..p + |w|]
    ensures forall i :: 0 <= i < |w| ==> !IsSpace(w[i])
    ensures p + |w| == |s| || IsSpace(s[p + |w|])
  {
    s[p..][..WordLen(s[p..])]
  }

  /** The positions from `i` on where the scan of `Words` finds a word, in order. */
  function WordStarts(s: string, i: nat): seq<nat>
    requires i <= |s|
    decreases |s| - i
  {
    if i == |s| then []
    else if IsSpace(s[i]) then WordStarts(s, i + 1)
    else [i] + WordStarts(s, i + WordLen(s[i..]))
  }

  /** The word at a non-whitespace position `i` ends at the next whitespace or at the end. */
  lemma WordRun(s: string, i: nat)
    requires i < |s| && !IsSpace(s[i])
    ensures var n := WordLen(s[i..]);
            1 <= n && i + n <= |s| &&
            (forall p :: i <= p < i + n ==> !IsSpace(s[p])) &&
            (i + n == |s| || IsSpace(s[i + n]))
  {
    var n := WordLen(s[i..]);
    assert forall p :: i <= p < i + n ==> s[p] == s[i..][p - i];
    assert i + n == |s| || s[i + n] == s[i..][n];
  }

  /** The scan from `i` finds only word starts, none before `i`. */
  lemma {:induction false} WordStartsFound(s: string, i: nat)
    requires i <= |s|
    requires i == 0 || i == |s| || IsSpace(s[i - 1]) || IsSpace(s[i])
    ensures forall k :: 0 <= k < |WordStarts(s, i)| ==> i <= WordStarts(s, i)[k] && WordStartsAt(s, WordStarts(s, i)[k])
    decreases |s| - i
  {
    if i < |s| {
      if IsSpace(s[i]) {
        WordStartsFound(s, i + 1);
      } else {
        WordRun(s, i);
        WordStartsFound(s, i + WordLen(s[i..]));
      }
    }
  }

  /** The scan from `i` finds the word starts in increasing order. */
  lemma {:induction false} WordStartsIncreasing(s: string, i: nat)
    requires i <= |s|
    ensures forall k :: 0 <= k < |WordStarts(s, i)| ==> i <= WordStarts(s, i)[k]
    ensures forall k, l :: 0 <= k < l < |WordStarts(s, i)| ==> WordStarts(s, i)[k] < WordStarts(s, i)[l]
    decreases |s| - i
  {
    if i < |s| {
      if IsSpace(s[i]) {
        WordStartsIncreasing(s, i + 1);
      } else {
        var n := WordLen(s[i..]);
        WordRun(s, i);
        WordStartsIncreasing(s, i + n);
        var rest, st := WordStarts(s, i + n), WordStarts(s, i);
        assert st == [i] + rest;
        forall k, l | 0 <= k < l < |st| ensures st[k] < st[l] {
          assert st[l] == rest[l - 1];
          if k > 0 {
            assert st[k] == rest[k - 1];
          }
        }
      }
    }
  }

  /** From a position that is not inside a word, the scan misses no word start. */
  lemma {:induction false} WordStartsComplete(s: string, i: nat)
    requires i <= |s|
    requires i == 0 || i == |s| || IsSpace(s[i - 1]) || IsSpace(s[i])
    ensures forall p :: i <= p < |s| && WordStartsAt(s, p) ==> p in WordStarts(s, i)
    decreases |s| - i
  {
    if i < |s| {
      if IsSpace(s[i]) {
        WordStartsComplete(s, i + 1);
      } else {
        var n := WordLen(s[i..]);
        WordRun(s, i);
        WordStartsComplete(s, i + n);
        forall p | i <= p < |s| && WordStartsAt(s, p) ensures p in WordStarts(s, i) {
          if p != i {
            assert p >= i + n;
          }
        }
      }
    }
  }

  /** The scan from `i` yields, for each word start it finds, the word there. */
  lemma {:induction false} WordsFrom(s: string, i: nat)
    requires i <= |s|
    ensures |Words(s[i..])| == |WordStarts(s, i)|
    ensures forall k :: 0 <= k < |WordStarts(s, i)| ==> WordStarts(s, i)[k] <= |s| && Words(s[i..])[k] == WordAt(s, WordStarts(s, i)[k])
    decreases |s| - i
  {
    if i < |s| {
      assert s[i..][1..] == s[i + 1..];
      if IsSpace(s[i]) {
        WordsFrom(s, i + 1);
      } else {
        var n := WordLen(s[i..]);
        assert s[i..][n..] == s[i + n..];
        WordsFrom(s, i + n);
      }
    }
  }

  /** `s.split()` is the list of maximal whitespace-free runs of `s`, in
      order: the k-th word is the run at the k-th position where a
      non-whitespace character follows the start or whitespace, and every
      such position starts a word. */
  lemma WordsSpec(s: string)
    ensures var st := WordStarts(s, 0);
            |Words(s)| == |st| &&
            (forall k :: 0 <= k < |st| ==> WordStartsAt(s, st[k]) && Words(s)[k] == WordAt(s, st[k])) &&
            (forall k, l :: 0 <= k < l < |st| ==> st[k] < st[l]) &&
            (forall p :: WordStartsAt(s, p) ==> p in st)
  {
    assert s[0..] == s;
    WordsFrom(s, 0);
    WordStartsFound(s, 0);
    WordStartsIncreasing(s, 0);
    WordStartsComplete(s, 0);
  }

  /** The end of the run of whitespace that starts at `i`. */
  function SpaceRunFrom(s: string, i: nat): (j: nat)
    requires i <= |s|
    ensures i <= j <= |s|
    decreases |s| - i
  {
    if i < |s| && IsSpace(s[i]) then SpaceRunFrom(s, i + 1) else i
  }

  /** The start of the run of whitespace that ends at `j`, not going below `lo`. */
  function SpaceRunBefore(s: string, lo: nat, j: nat): (i: nat)
    requires lo <= j <= |s|
    ensures lo <= i <= j
  {
    if lo < j && IsSpace(s[j - 1]) then SpaceRunBefore(s, lo, j - 1) else j
  }

  lemma {:induction false} SpaceRunFromSpec(s: string, i: nat)
    requires i <= |s|
    ensures forall k :: i <= k < SpaceRunFrom(s, i) ==> IsSpace(s[k])
    ensures SpaceRunFrom(s, i) == |s| || !IsSpace(s[SpaceRunFrom(s, i)])
    decreases |s| - i
  {
    if i < |s| && IsSpace(s[i]) {
      SpaceRunFromSpec(s, i + 1);
    }
  }

  lemma {:induction false} SpaceRunBeforeSpec(s: string, lo: nat, j: nat)
    requires lo <= j <= |s|
    ensures forall k :: SpaceRunBefore(s, lo, j) <= k < j ==> IsSpace(s[k])
    ensures SpaceRunBefore(s, lo, j) == lo || !IsSpace(s[SpaceRunBefore(s, lo, j) - 1])
  {
    if lo < j && IsSpace(s[j - 1]) {
      SpaceRunBeforeSpec(s, lo, j - 1);
    }
  }

  /** `s.strip()`: `s` without its leading and trailing whitespace. */
  function Strip(s: string): (r: string)
  {
    var i := SpaceRunFrom(s, 0);
    s[i..SpaceRunBefore(s, i, |s|)]
  }

  /** `Strip` removes exactly the whitespace at both ends: the result is a
      slice of `s` with only whitespace outside it, and it neither starts
      nor ends with whitespace. */
  lemma StripSpec(s: string)
    ensures Strip(s) == [] || (!IsSpace(Strip(s)[0]) && !IsSpace(Strip(s)[|Strip(s)| - 1]))
    ensures exists i, j :: 0 <= i <= j <= |s| && Strip(s) == s[i..j]
                           && (forall k :: 0 <= k < i ==> IsSpace(s[k]))
                           && (forall k :: j <= k < |s| ==> IsSpace(s[k]))
  {
    var i := SpaceRunFrom(s, 0);
    var j := SpaceRunBefore(s, i, |s|);
    SpaceRunFromSpec(s, 0);
    SpaceRunBeforeSpec(s, i, |s|);
    assert Strip(s) == s[i..j];
  }

  /** ASCII case folding of one character. */
  function LowerChar(c: char): char
  {
    if 'A' <= c <= 'Z' then (c as int + 32) as char else c
  }

  /** `s.lower()`. */
  function Lower(s: string): (r: string)
    ensures |r| == |s|
    ensures forall i :: 0 <= i < |s| ==> r[i] == LowerChar(s[i])
  {
    seq(|s|, i requires 0 <= i < |s| => LowerChar(s[i]))
  }

  lemma LowerKeepsSpaces(c: char)
    ensures IsSpace(LowerChar(c)) <==> IsSpace(c)
  {
  }

  /** `s.startswith(pat)`. */
  predicate StartsWith(s: string, pat: string)
  {
    |pat| <= |s| && s[..|pat|] == pat
  }

  /** `pat in s` for strings: `pat` occurs somewhere in `s`. */
  predicate Contains(s: string, pat: string)
    decreases |s|
  {
    StartsWith(s, pat) || (s != [] && Contains(s[1..], pat))
  }

  /** `pat` occurs in `s` starting at position `i`. */
  predicate OccursAt(s: string, pat: string, i: int)
  {
    0 <= i && i + |pat| <= |s| && s[i..i + |pat|] == pat
  }

  /** The recursive substring test agrees with "some position of `s` starts `pat`". */
  lemma {:induction false} ContainsAt(s: string, pat: string)
    ensures Contains(s, pat) <==> exists i :: OccursAt(s, pat, i)
    decreases |s|
  {
    if StartsWith(s, pat) {
      assert OccursAt(s, pat, 0);
    }
    if s != [] {
      ContainsAt(s[1..], pat);
      if Contains(s[1..], pat) {
        var i :| OccursAt(s[1..], pat, i);
        assert OccursAt(s, pat, i + 1);
      }
      if i :| OccursAt(s, pat, i) {
        if i > 0 {
          assert OccursAt(s[1..], pat, i - 1);
        }
      }
    } else if i :| OccursAt(s, pat, i) {
      assert StartsWith(s, pat);
    }
  }

  /** `pat` is not in `s` when it starts at no position of `s`. */
  lemma NotContains(s: string, pat: string)
    requires forall i :: !OccursAt(s, pat, i)
    ensures !Contains(s, pat)
  {
    ContainsAt(s, pat);
  }

  /** A pattern holding a character the text lacks does not occur in it. */
  lemma NotContainsChar(s: string, pat: string, d: nat)
    requires d < |pat| && pat[d] !in s
    ensures !Contains(s, pat)
  {
    forall i ensures !OccursAt(s, pat, i) {
      if 0 <= i && i + |pat| <= |s| {
        assert s[i..i + |pat|][d] == s[i + d];
        assert s[i + d] in s;
      }
    }
    NotContains(s, pat);
  }

  /** `any(k in s for k in keys)`. */
  predicate AnyIn(s: string, keys: seq<string>)
  {
    exists k :: 0 <= k < |keys| && Contains(s, keys[k])
  }

  /** `pos` lists, in increasing order, exactly the positions where `keep` holds. */
  predicate Enumerates(pos: seq<nat>, keep: seq<bool>)
  {
    (forall j :: 0 <= j < |pos| ==> pos[j] < |keep| && keep[pos[j]]) &&
    (forall j, k :: 0 <= j < k < |pos| ==> pos[j] < pos[k]) &&
    (forall i :: 0 <= i < |keep| && keep[i] ==> i in pos)
  }

  /** The positions where `keep` holds, in increasing order. */
  function Positions(keep: seq<bool>): (pos: seq<nat>)
    ensures |pos| <= |keep|
  {
    if keep == [] then []
    else Positions(keep[..|keep| - 1]) + (if keep[|keep| - 1] then [|keep| - 1] else [])
  }

  lemma PositionsSnoc(keep: seq<bool>, b: bool)
    ensures Positions(keep + [b]) == Positions(keep) + (if b then [|keep|] else [])
  {
    assert (keep + [b])[..|keep|] == keep;
  }

  /** Every position lies within `keep`. */
  lemma PositionsBelow(keep: seq<bool>)
    ensures forall j :: 0 <= j < |Positions(keep)| ==> Positions(keep)[j] < |keep|
  {
    PositionsSpec(keep);
  }

  lemma {:induction false} PositionsSpec(keep: seq<bool>)
    ensures Enumerates(Positions(keep), keep)
  {
    if keep != [] {
      var init := keep[..|keep| - 1];
      PositionsSpec(init);
      var p, q := Positions(init), Positions(keep);
      assert keep == init + [keep[|keep| - 1]];
      forall j | 0 <= j < |q| ensures q[j] < |keep| && keep[q[j]] {
        if j < |p| {
          assert q[j] == p[j] && init[p[j]] == keep[p[j]];
        }
      }
      forall j, k | 0 <= j < k < |q| ensures q[j] < q[k] {
        if k < |p| {
          assert q[j] == p[j] && q[k] == p[k];
        } else {
          assert q[j] == p[j];
        }
      }
      forall i | 0 <= i < |keep| && keep[i] ensures i in q {
        if i < |init| {
          assert init[i] == keep[i];
          var j :| 0 <= j < |p| && p[j] == i;
          assert q[j] == i;
        } else {
          assert q[|q| - 1] == i;
        }
      }
    }
  }
  /** `parts` are the entries of `vals` at exactly the positions `keep` marks, in order. */
  predicate Picks<T(==)>(parts: seq<T>, vals: seq<T>, keep: seq<bool>)
  {
    var pos := Positions(keep);
    |parts| == |pos| && forall j :: 0 <= j < |pos| ==> pos[j] < |vals| && parts[j] == vals[pos[j]]
  }

  /** Appending one more candidate appends it to the picks exactly when it is kept. */
  lemma PicksSnoc<T>(parts: seq<T>, vals: seq<T>, keep: seq<bool>, b: bool, x: T)
    requires |vals| == |keep| && Picks(parts, vals, keep)
    ensures Picks(parts + (if b then [x] else []), vals + [x], keep + [b])
  {
    PositionsSnoc(keep, b);
    PositionsBelow(keep);
    var p, q := Positions(keep), Positions(keep + [b]);
    var r := parts + (if b then [x] else []);
    forall j | 0 <= j < |q| ensures q[j] < |vals| + 1 && r[j] == (vals + [x])[q[j]] {
      if j < |p| {
        assert q[j] == p[j] && r[j] == parts[j];
      }
    }
  }

}

=== FILE: query.dfy ===
/** The two rewrites a question goes through before retrieval: shortcut
    expansion (`RAGSearch.expand_query`) and the pronoun test at the start of
    `RAGSearch.retrieve_relevant_documents`. */
module Query {
  import opened PyValues

  /** The fixed shortcut table of `expand_query`. */
  const Shortcuts: map<string, string> :=
    map["info" := "information", "def" := "definition", "desc" := "description", "intro" := "introduction"]

  /** `shortcuts.get(w.lower(), w)`. */
  function ExpandWord(w: string): string
  {
    var l := Lower(w);
    if l in Shortcuts then Shortcuts[l] else w
  }

  function ExpandWords(ws: seq<string>): (r: seq<string>)
    ensures |r| == |ws|
    ensures forall k :: 0 <= k < |ws| ==> r[k] == ExpandWord(ws[k])
  {
    seq(|ws|, k requires 0 <= k < |ws| => ExpandWord(ws[k]))
  }

  /** `" ".join(shortcuts.get(w.lower(), w) for w in query.split())`. */
  function ExpandQuery(q: string): string
  {
    Join(" ", ExpandWords(Words(q)))
  }

  lemma LowerOfLower(s: string)
    ensures Lower(s) == s <== forall i :: 0 <= i < |s| ==> !('A' <= s[i] <= 'Z')
  {
  }

  lemma ExpandWordIsWord(w: string)
    requires IsWord(w)
    ensures IsWord(ExpandWord(w))
  {
  }

  /** No replacement is itself a shortcut, so expanding a word twice is expanding it once. */
  lemma ExpandWordIdempotent(w: string)
    ensures ExpandWord(ExpandWord(w)) == ExpandWord(w)
  {
    var l := Lower(w);
    if l in Shortcuts {
      var v := Shortcuts[l];
      LowerOfLower(v);
      assert Lower(v) == v;
    }
  }

  /** Expansion keeps the word count, and each word is replaced exactly when
      its lower-case form is one of the four shortcuts. */
  lemma {:induction false} ExpandedWords(q: string)
    ensures Words(ExpandQuery(q)) == ExpandWords(Words(q))
    ensures |Words(ExpandQuery(q))| == |Words(q)|
    ensures forall k :: 0 <= k < |Words(q)| ==>
              Words(ExpandQuery(q))[k] ==
                (if Lower(Words(q)[k]) in Shortcuts then Shortcuts[Lower(Words(q)[k])] else Words(q)[k])
  {
    var ws := Words(q);
    var es := ExpandWords(ws);
    forall k | 0 <= k < |es| ensures IsWord(es[k]) {
      ExpandWordIsWord(ws[k]);
    }
    WordsOfJoin(es);
  }

  /** Expanding an expanded query changes nothing. */
  lemma {:induction false} ExpandIdempotent(q: string)
    ensures ExpandQuery(ExpandQuery(q)) == ExpandQuery(q)
  {
    var es := ExpandWords(Words(q));
    ExpandedWords(q);
    forall k | 0 <= k < |es| ensures ExpandWords(es)[k] == es[k] {
      ExpandWordIdempotent(Words(q)[k]);
    }
    assert ExpandWords(es) == es;
  }

  // ------------------------------------------------------------- pronouns

  /** The fixed pronoun list; "his" is not in it. */
  const Pronouns: seq<string> := ["he", "she", "it", "they", "him", "her", "this"]

  /** The pronoun test as written: a space-padded substring test, or the
      query starting with a pronoun and a space. `ql` is the lower-cased
      expanded query. */
  predicate HasPronoun(ql: string)
  {
    (exists k :: 0 <= k < |Pronouns| && Contains(" " + ql + " ", " " + Pronouns[k] + " "))
    || (exists k :: 0 <= k < |Pronouns| && StartsWith(ql, Pronouns[k] + " "))
  }

  function Padded(ws: seq<string>): string
  {
    " " + Join(" ", ws) + " "
  }

  function LowerAll(ws: seq<string>): (r: seq<string>)
    ensures |r| == |ws|
    ensures forall k :: 0 <= k < |ws| ==> r[k] == Lower(ws[k])
  {
    seq(|ws|, k requires 0 <= k < |ws| => Lower(ws[k]))
  }

  lemma LowerConcat(a: string, b: string)
    ensures Lower(a + b) == Lower(a) + Lower(b)
  {
  }

  /** Lower-casing a space-joined string lower-cases each word. */
  lemma {:induction false} LowerJoin(ws: seq<string>)
    ensures Lower(Join(" ", ws)) == Join(" ", LowerAll(ws))
  {
    if |ws| > 1 {
      LowerJoin(ws[1..]);
      assert LowerAll(ws)[1..] == LowerAll(ws[1..]);
      LowerConcat(ws[0] + " ", Join(" ", ws[1..]));
      LowerConcat(ws[0], " ");
    }
  }

  lemma LowerWord(w: string)
    requires IsWord(w)
    ensures IsWord(Lower(w))
  {
    forall i | 0 <= i < |w| ensures !IsSpace(Lower(w)[i]) {
      LowerKeepsSpaces(w[i]);
    }
  }

  lemma PaddedCons(vs: seq<string>)
    requires |vs| >= 1
    ensures Padded(vs) == " " + vs[0] + (if |vs| == 1 then " " else Padded(vs[1..]))
  {
    if |vs| > 1 {
      assert Join(" ", vs) == vs[0] + " " + Join(" ", vs[1..]);
    }
  }

  /** Where " p " can start in " v" + T when T starts with a space:
      at position 0 exactly when p is v, never inside v. */
  lemma OccursAtFirstWord(v: string, t: string, p: string)
    requires IsWord(v) && IsWord(p)
    requires t != [] && t[0] == ' '
    ensures OccursAt(" " + v + t, " " + p + " ", 0) <==> p == v
    ensures forall i :: 1 <= i <= |v| ==> !OccursAt(" " + v + t, " " + p + " ", i)
  {
    var P, pp := " " + v + t, " " + p + " ";
    forall i | 1 <= i <= |v| ensures !OccursAt(P, pp, i) {
      assert P[i] == v[i - 1];
    }
    if |p| < |v| {
      assert P[1 + |p|] == v[|p|];
    } else if |p| > |v| {
      assert P[1 + |v|] == t[0];
      assert pp[1 + |v|] == p[|v|];
    } else {
      assert P[..|pp|] == " " + v + " ";
      if OccursAt(P, pp, 0) {
        assert pp[1..1 + |p|] == p;
        assert (" " + v + " ")[1..1 + |v|] == v;
      }
    }
  }

  /** Occurrences past the first word of " v" + T are occurrences in T. */
  lemma OccursAfterFirstWord(v: string, t: string, pp: string, i: int)
    requires i >= 0
    ensures OccursAt(" " + v + t, pp, i + 1 + |v|) <==> OccursAt(t, pp, i)
  {
    var P := " " + v + t;
    if i + |pp| <= |t| {
      assert P[i + 1 + |v|..i + 1 + |v| + |pp|] == t[i..i + |pp|];
    }
  }

  /** In a space-padded, space-joined list of words, " p " occurs exactly
      when `p` is one of the words. */
  lemma {:induction false} PaddedOccurs(vs: seq<string>, p: string)
    requires forall k :: 0 <= k < |vs| ==> IsWord(vs[k])
    requires IsWord(p)
    ensures (exists i :: OccursAt(Padded(vs), " " + p + " ", i)) <==> p in vs
  {
    var P, pp := Padded(vs), " " + p + " ";
    if vs == [] {
      forall i ensures !OccursAt(P, pp, i) {
        assert |P| == 2;
      }
    } else {
      var v := vs[0];
      var t := if |vs| == 1 then " " else Padded(vs[1..]);
      PaddedCons(vs);
      assert P == " " + v + t;
      if |vs| > 1 {
        PaddedOccurs(vs[1..], p);
      } else {
        forall i ensures !OccursAt(t, pp, i) {
          assert |t| == 1;
        }
      }
      assert (exists i :: OccursAt(t, pp, i)) <==> p in vs[1..];
      OccursAtFirstWord(v, t, p);
      if p in vs[1..] {
        var i :| OccursAt(t, pp, i);
        OccursAfterFirstWord(v, t, pp, i);
      }
      forall i | OccursAt(P, pp, i) ensures p in vs {
        if i > 0 {
          OccursAfterFirstWord(v, t, pp, i - 1 - |v|);
        }
      }
    }
  }

  /** On a space-joined list of words the pronoun test is a whole-word test. */
  lemma {:induction false} HasPronounOfWords(vs: seq<string>)
    requires forall k :: 0 <= k < |vs| ==> IsWord(vs[k])
    ensures HasPronoun(Join(" ", vs)) <==> exists k :: 0 <= k < |vs| && vs[k] in Pronouns
  {
    var s := Join(" ", vs);
    assert Padded(vs) == " " + s + " ";
    forall j | 0 <= j < |Pronouns|
      ensures Contains(Padded(vs), " " + Pronouns[j] + " ") <==> Pronouns[j] in vs
    {
      ContainsAt(Padded(vs), " " + Pronouns[j] + " ");
      PaddedOccurs(vs, Pronouns[j]);
    }
    forall j | 0 <= j < |Pronouns| && StartsWith(s, Pronouns[j] + " ")
      ensures Contains(Padded(vs), " " + Pronouns[j] + " ")
    {
      StartsWithPadded(s, Pronouns[j]);
    }
  }

  /** A text starting with "p " holds " p " once padded with spaces. */
  lemma StartsWithPadded(s: string, p: string)
    requires StartsWith(s, p + " ")
    ensures StartsWith(" " + s + " ", " " + p + " ")
  {
    var n := |p| + 1;
    assert (" " + s + " ")[..n + 1] == " " + s[..n];
  }

  /** The pronoun test on the lower-cased expanded query holds exactly when
      one of its words, lower-cased, is in the pronoun list: punctuation
      attached to a word ("he?") or a pronoun inside a word ("the") does not count. */
  lemma {:induction false} PronounIsWholeWord(q: string)
    ensures HasPronoun(Lower(ExpandQuery(q))) <==>
              exists k :: 0 <= k < |Words(ExpandQuery(q))| && Lower(Words(ExpandQuery(q))[k]) in Pronouns
  {
    var es := ExpandWords(Words(q));
    ExpandedWords(q);
    LowerJoin(es);
    var ls := LowerAll(es);
    forall k | 0 <= k < |ls| ensures IsWord(ls[k]) {
      LowerWord(es[k]);
    }
    HasPronounOfWords(ls);
  }

  /** "his" is not in the list, so a follow-up about "his work" does not
      trigger the context, while one about "her work" does. */
  lemma HisIsNotAPronoun(his: seq<string>, her: seq<string>)
    requires his == ["his", "work"] && her == ["her", "work"]
    ensures !HasPronoun(Join(" ", his))
    ensures HasPronoun(Join(" ", her))
  {
    HasPronounOfWords(his);
    HasPronounOfWords(her);
    assert her[0] == Pronouns[5];
  }
}

=== FILE: records.dfy ===
/** The rows the pipeline reads from its SQLite store (database.py), and the
    documents it hands on after a lookup. The store itself is a sequence of
    rows in table order; database.py is not part of this model. */
module Records {
  import opened PyValues

  /** One row of the `knowledge` table: id, flattened content, metadata as JSON text. */
  datatype Row = Row(id: string, content: string, metadata: string)

  /** A retrieved document: `{'id', 'content', 'score', 'metadata'}`. */
  datatype Document = Document(id: string, content: string, score: real, metadata: Object)

  /** `db.get_record_by_id(id)`: the first row with that id, or None. */
  function Lookup(store: seq<Row>, id: string): (r: Option<Row>)
    ensures r.Some? ==> r.value.id == id
  {
    if store == [] then None
    else if store[0].id == id then Some(store[0])
    else Lookup(store[1..], id)
  }

  /** A lookup misses exactly when no row has the id, and a hit is a stored row. */
  lemma {:induction false} LookupSpec(store: seq<Row>, id: string)
    ensures Lookup(store, id).None? <==> forall k :: 0 <= k < |store| ==> store[k].id != id
    ensures Lookup(store, id).Some? ==> Lookup(store, id).value in store
  {
    if store != [] && store[0].id != id {
      LookupSpec(store[1..], id);
      assert forall k :: 1 <= k < |store| ==> store[k] == store[1..][k - 1];
    }
  }

  /** `json.loads(text)` guarded by a bare `except`: the parsed dict, or `{}`. */
  function MetadataOf(parse: string -> Option<Object>, text: string): Object
  {
    match parse(text)
    case Some(md) => md
    case None => []
  }
}

=== FILE: search.dfy ===
/** `RAGSearch` of search.py: the catalogue of known names, the one-slot
    conversational context, and the retrieval pipeline that turns a question
    into documents (expansion, pronoun test, fuzzy override, merge, fetch,
    context refresh), followed by `generate_answer`. The store is a sequence
    of rows, `json.loads` is a partial function `parse`, thefuzz's
    `extractOne` is a function from the query and the names to a name and a
    score, and the vector search is the `EmbeddingManager` of embedding.py. */
module Search {
  import opened PyValues
  import opened Records
  import opened Query
  import opened Answer
  import opened Embedding

  /** `last_entity`: the record id and the name of the entity talked about. */
  datatype Entity = Entity(id: string, name: Json)

  /** One entry `(name, record id)` of `known_names`. */
  type KnownName = (Json, string)

  // ---------------------------------------------------------- known names

  /** The value a metadata dict names an entity by, under `key`. */
  predicate NamedBy(md: Object, key: string, n: Json)
  {
    Get(md, key) == Some(n)
  }

  /** The entries one row adds: its `name`, then its `title`, each when the
      key is present; nothing when its metadata does not parse. */
  function RowNames(row: Row, parse: string -> Option<Object>): seq<KnownName>
  {
    match parse(row.metadata)
    case None => []
    case Some(md) =>
      (if HasKey(md, "name") then [(Get(md, "name").value, row.id)] else []) +
      (if HasKey(md, "title") then [(Get(md, "title").value, row.id)] else [])
  }

  /** `known_names` after `_load_known_names` over the rows, in table order. */
  function Catalogue(rows: seq<Row>, parse: string -> Option<Object>): seq<KnownName>
  {
    if rows == [] then []
    else Catalogue(rows[..|rows| - 1], parse) + RowNames(rows[|rows| - 1], parse)
  }

  lemma RowNamesMember(row: Row, parse: string -> Option<Object>, n: Json, id: string)
    ensures (n, id) in RowNames(row, parse) <==>
              row.id == id && parse(row.metadata).Some? &&
              (NamedBy(parse(row.metadata).value, "name", n) || NamedBy(parse(row.metadata).value, "title", n))
  {
  }

  /** An entry is in the catalogue exactly when some row with that id has
      metadata that parses and holds the name under `name` or `title`. */
  lemma {:induction false} CatalogueMember(rows: seq<Row>, parse: string -> Option<Object>, n: Json, id: string)
    ensures (n, id) in Catalogue(rows, parse) <==>
              exists k :: 0 <= k < |rows| && rows[k].id == id && parse(rows[k].metadata).Some? &&
                (NamedBy(parse(rows[k].metadata).value, "name", n) || NamedBy(parse(rows[k].metadata).value, "title", n))
  {
    if rows != [] {
      var init, last := rows[..|rows| - 1], rows[|rows| - 1];
      CatalogueMember(init, parse, n, id);
      RowNamesMember(last, parse, n, id);
      assert forall k :: 0 <= k < |init| ==> init[k] == rows[k];
    }
  }

  /** A row holding both keys lists its name first, then its title. */
  lemma NameBeforeTitle(rows: seq<Row>, row: Row, parse: string -> Option<Object>, md: Object, name: Json, title: Json)
    requires parse(row.metadata) == Some(md) && Get(md, "name") == Some(name) && Get(md, "title") == Some(title)
    ensures Catalogue(rows + [row], parse) == Catalogue(rows, parse) + [(name, row.id), (title, row.id)]
  {
    assert (rows + [row])[..|rows|] == rows;
  }

  // ---------------------------------------------------------------- fuzzy

  /** `names_only`. */
  function Names(known: seq<KnownName>): (r: seq<Json>)
    ensures |r| == |known|
    ensures forall k :: 0 <= k < |known| ==> r[k] == known[k].0
  {
    seq(|known|, k requires 0 <= k < |known| => known[k].0)
  }

  /** The id of the first entry whose name equals `m`. */
  function FindNameId(known: seq<KnownName>, m: Json): Option<string>
  {
    if known == [] then None
    else if known[0].0 == m then Some(known[0].1)
    else FindNameId(known[1..], m)
  }

  /** The search loop stopped at `i`: either the end, or the first entry named `m`. */
  lemma {:induction false} FindNameIdAt(known: seq<KnownName>, m: Json, i: nat)
    requires i <= |known|
    requires forall j :: 0 <= j < i ==> known[j].0 != m
    requires i == |known| || known[i].0 == m
    ensures FindNameId(known, m) == if i == |known| then None else Some(known[i].1)
  {
    if known != [] && known[0].0 != m {
      assert forall j :: 0 <= j < i - 1 ==> known[1..][j] == known[j + 1];
      FindNameIdAt(known[1..], m, i - 1);
    }
  }

  /** The id the fuzzy step settles on: only with a non-empty catalogue,
      a score above 80, and an entry bearing the matched name. */
  function FuzzyId(known: seq<KnownName>, extractOne: (string, seq<Json>) -> (Json, int), query: string): Option<string>
  {
    if known == [] then None
    else
      var best := extractOne(query, Names(known));
      if best.1 > 80 then FindNameId(known, best.0) else None
  }

  /** The fuzzy step finds an id exactly when the catalogue is non-empty, the
      score is above 80 and some entry bears the matched name; the id is that
      of the first such entry. */
  lemma FuzzyMatch(known: seq<KnownName>, extractOne: (string, seq<Json>) -> (Json, int), query: string)
    ensures var best := extractOne(query, Names(known));
            FuzzyId(known, extractOne, query).Some? <==>
              known != [] && best.1 > 80 && exists k :: 0 <= k < |known| && known[k].0 == best.0
    ensures var best := extractOne(query, Names(known));
            FuzzyId(known, extractOne, query).Some? ==>
              exists k :: 0 <= k < |known| && known[k] == (best.0, FuzzyId(known, extractOne, query).value) &&
                forall j :: 0 <= j < k ==> known[j].0 != best.0
  {
    FindNameIdSpec(known, extractOne(query, Names(known)).0);
  }

  /** The first entry bearing `m` gives the id; none bears it exactly when there is no id. */
  lemma {:induction false} FindNameIdSpec(known: seq<KnownName>, m: Json)
    ensures FindNameId(known, m).Some? <==> exists k :: 0 <= k < |known| && known[k].0 == m
    ensures FindNameId(known, m).Some? ==>
              exists k :: 0 <= k < |known| && known[k] == (m, FindNameId(known, m).value) &&
                forall j :: 0 <= j < k ==> known[j].0 != m
  {
    if known != [] && known[0].0 != m {
      FindNameIdSpec(known[1..], m);
      assert forall k :: 1 <= k < |known| ==> known[k] == known[1..][k - 1];
      if FindNameId(known, m).Some? {
        var k :| 0 <= k < |known[1..]| && known[1..][k] == (m, FindNameId(known, m).value) &&
                 forall j :: 0 <= j < k ==> known[1..][j].0 != m;
        assert known[k + 1] == (m, FindNameId(known, m).value);
        forall j | 0 <= j < k + 1 ensures known[j].0 != m {
          if j > 0 { assert known[j] == known[1..][j - 1]; }
        }
      }
    } else if known != [] {
      assert known[0] == (m, FindNameId(known, m).value);
    }
  }

  /** When `extractOne` answers one of the names with a score above 80, the
      fuzzy step finds an id: that of the first entry bearing the name. */
  lemma FuzzyHit(known: seq<KnownName>, extractOne: (string, seq<Json>) -> (Json, int), query: string)
    requires extractOne(query, Names(known)).0 in Names(known)
    requires extractOne(query, Names(known)).1 > 80
    ensures FuzzyId(known, extractOne, query).Some?
    ensures var best := extractOne(query, Names(known));
            exists k :: 0 <= k < |known| && known[k] == (best.0, FuzzyId(known, extractOne, query).value) &&
              forall j :: 0 <= j < k ==> known[j].0 != best.0
  {
    var best := extractOne(query, Names(known));
    var k :| 0 <= k < |known| && Names(known)[k] == best.0;
    assert known[k].0 == best.0;
    FuzzyMatch(known, extractOne, query);
  }

  /** An empty catalogue never matches. */
  lemma EmptyCatalogueNoMatch(extractOne: (string, seq<Json>) -> (Json, int), query: string)
    ensures FuzzyId([], extractOne, query) == None
  {
  }

  // ------------------------------------------------------------- forcing

  /** `if forced_id:` / `if fuzzy_match_id:` on an optional id: present and not "". */
  predicate TruthyId(id: Option<string>)
  {
    id.Some? && id.value != ""
  }

  /** What a question is turned into before the vector search. */
  datatype Plan = Plan(query: string, hasPronoun: bool, fuzzy: Option<string>, forced: Option<string>, searchQuery: string)

  /** The steps of `retrieve_relevant_documents` up to the vector search. */
  function PlanFor(known: seq<KnownName>, last: Option<Entity>,
                   extractOne: (string, seq<Json>) -> (Json, int), question: string): Plan
  {
    var q := ExpandQuery(question);
    var hasPronoun := HasPronoun(Lower(q));
    var fuzzy := FuzzyId(known, extractOne, q);
    var forced :=
      if TruthyId(fuzzy) then fuzzy
      else if hasPronoun && last.Some? then Some(last.value.id)
      else None;
    var searchQuery :=
      if hasPronoun && last.Some? && !TruthyId(fuzzy) then q + " " + Str(last.value.name) else q;
    Plan(q, hasPronoun, fuzzy, forced, searchQuery)
  }

  /** The forced id: a fuzzy match wins; failing that, the context id when
      the question has a pronoun and a context is set; otherwise none. The
      context name is appended to the search query in exactly the second case. */
  lemma Forcing(known: seq<KnownName>, last: Option<Entity>,
                extractOne: (string, seq<Json>) -> (Json, int), question: string)
    ensures var p := PlanFor(known, last, extractOne, question);
            var context := p.hasPronoun && last.Some?;
            (TruthyId(p.fuzzy) ==> p.forced == p.fuzzy) &&
            (!TruthyId(p.fuzzy) ==> (p.forced.Some? <==> context)) &&
            (!TruthyId(p.fuzzy) && context ==> p.forced == Some(last.value.id)) &&
            (p.searchQuery != p.query <==> context && !TruthyId(p.fuzzy)) &&
            (p.searchQuery != p.query ==> p.searchQuery == p.query + " " + Str(last.value.name))
  {
    var p := PlanFor(known, last, extractOne, question);
    if p.hasPronoun && last.Some? && !TruthyId(p.fuzzy) {
      assert |p.searchQuery| > |p.query|;
    }
  }

  // --------------------------------------------------------------- merge

  type Hit = (string, real)

  /** The ids of a list of hits, as a set. */
  function Seen(hits: seq<Hit>): set<string>
  {
    if hits == [] then {} else Seen(hits[..|hits| - 1]) + {hits[|hits| - 1].0}
  }

  lemma {:induction false} SeenSpec(hits: seq<Hit>, id: string)
    ensures id in Seen(hits) <==> exists k :: 0 <= k < |hits| && hits[k].0 == id
  {
    if hits != [] {
      SeenSpec(hits[..|hits| - 1], id);
      assert forall k :: 0 <= k < |hits| - 1 ==> hits[..|hits| - 1][k] == hits[k];
    }
  }

  /** No id occurs twice. */
  predicate DistinctIds(hits: seq<Hit>)
  {
    forall i, j :: 0 <= i < j < |hits| ==> hits[i].0 != hits[j].0
  }

  /** The merge loop: `start`, then each hit whose id is not yet seen. */
  function MergeHits(start: seq<Hit>, hits: seq<Hit>): seq<Hit>
  {
    if hits == [] then start
    else
      var prev, h := MergeHits(start, hits[..|hits| - 1]), hits[|hits| - 1];
      if h.0 in Seen(prev) then prev else prev + [h]
  }

  /** `s[:k]`, where a negative `k` counts from the end. */
  function PyPrefix<T>(s: seq<T>, k: int): (r: seq<T>)
    ensures 0 <= k ==> |r| == if k < |s| then k else |s|
    ensures k < 0 ==> |r| == if |s| + k < 0 then 0 else |s| + k
    ensures r == s[..|r|]
  {
    if k >= |s| then s
    else if k >= 0 then s[..k]
    else if |s| + k >= 0 then s[..|s| + k]
    else []
  }

  /** The sentinel entry for a truthy forced id, then the new hits, truncated to `topK`. */
  function Merge(forced: Option<string>, hits: seq<Hit>, topK: int): seq<Hit>
  {
    PyPrefix(MergeHits(if TruthyId(forced) then [(forced.value, 2.0)] else [], hits), topK)
  }

  /** `xs` can be obtained from `ys` by deleting elements. */
  predicate IsSubsequence<T(==)>(xs: seq<T>, ys: seq<T>)
    decreases |ys|
  {
    if xs == [] then true
    else if ys == [] then false
    else if xs[|xs| - 1] == ys[|ys| - 1] then IsSubsequence(xs[..|xs| - 1], ys[..|ys| - 1])
    else IsSubsequence(xs, ys[..|ys| - 1])
  }

  lemma {:induction false} SubsequenceSnoc<T>(xs: seq<T>, ys: seq<T>, y: T)
    requires IsSubsequence(xs, ys)
    ensures IsSubsequence(xs, ys + [y]) && IsSubsequence(xs + [y], ys + [y])
  {
    assert (ys + [y])[..|ys|] == ys;
    assert (xs + [y])[..|xs|] == xs;
    if xs != [] && xs[|xs| - 1] == y {
      SubsequenceDrop(xs, ys);
    }
  }

  lemma {:induction false} SubsequenceDrop<T>(xs: seq<T>, ys: seq<T>)
    requires xs != [] && IsSubsequence(xs, ys)
    ensures IsSubsequence(xs[..|xs| - 1], ys)
    decreases |ys|, 0
  {
    var init := xs[..|xs| - 1];
    if ys != [] {
      var ys' := ys[..|ys| - 1];
      if xs[|xs| - 1] == ys[|ys| - 1] {
        if init != [] {
          SubsequenceDrop(init, ys');
          SubsequenceWiden(init[..|init| - 1], ys', ys[|ys| - 1]);
        }
        SubsequenceWiden(init, ys', ys[|ys| - 1]);
      } else {
        SubsequenceDrop(xs, ys');
        SubsequenceWiden(init, ys', ys[|ys| - 1]);
      }
    }
  }

  lemma {:induction false} SubsequenceWiden<T>(xs: seq<T>, ys: seq<T>, y: T)
    requires IsSubsequence(xs, ys)
    ensures IsSubsequence(xs, ys + [y])
    decreases |ys|, 1
  {
    assert (ys + [y])[..|ys|] == ys;
    if xs != [] && xs[|xs| - 1] == y {
      SubsequenceDrop(xs, ys);
    }
  }

  lemma SeenSnoc(hits: seq<Hit>, h: Hit)
    ensures Seen(hits + [h]) == Seen(hits) + {h.0}
  {
    assert (hits + [h])[..|hits|] == hits;
  }

  /** The merged list starts with `start`. */
  lemma {:induction false} MergeHitsPrefix(start: seq<Hit>, hits: seq<Hit>)
    ensures var r := MergeHits(start, hits);
            |start| <= |r| && r[..|start|] == start
  {
    if hits != [] {
      MergeHitsPrefix(start, hits[..|hits| - 1]);
    }
  }

  /** After `start`, the merged list is taken from the hits in their order. */
  lemma {:induction false} MergeHitsOrder(start: seq<Hit>, hits: seq<Hit>)
    ensures var r := MergeHits(start, hits);
            |start| <= |r| && IsSubsequence(r[|start|..], hits)
  {
    MergeHitsPrefix(start, hits);
    var r := MergeHits(start, hits);
    if hits == [] {
      assert r[|start|..] == [];
    } else {
      var init, h := hits[..|hits| - 1], hits[|hits| - 1];
      MergeHitsOrder(start, init);
      var prev := MergeHits(start, init);
      assert hits == init + [h];
      if r == prev {
        SubsequenceWiden(prev[|start|..], init, h);
      } else {
        assert r[|start|..] == prev[|start|..] + [h];
        SubsequenceSnoc(prev[|start|..], init, h);
      }
    }
  }

  /** No id is kept twice. */
  lemma {:induction false} MergeHitsDistinct(start: seq<Hit>, hits: seq<Hit>)
    requires DistinctIds(start)
    ensures DistinctIds(MergeHits(start, hits))
  {
    if hits != [] {
      var init, h := hits[..|hits| - 1], hits[|hits| - 1];
      MergeHitsDistinct(start, init);
      var prev := MergeHits(start, init);
      var r := MergeHits(start, hits);
      if r != prev {
        SeenSpec(prev, h.0);
        forall i, j | 0 <= i < j < |r| ensures r[i].0 != r[j].0 {
          assert r[i] == prev[i];
          if j < |r| - 1 {
            assert r[j] == prev[j];
          }
        }
      }
    }
  }

  /** Every hit's id ends up in the merged list. */
  lemma {:induction false} MergeHitsKeeps(start: seq<Hit>, hits: seq<Hit>)
    ensures forall k :: 0 <= k < |hits| ==> hits[k].0 in Seen(MergeHits(start, hits))
  {
    if hits != [] {
      var init, h := hits[..|hits| - 1], hits[|hits| - 1];
      MergeHitsKeeps(start, init);
      var prev := MergeHits(start, init);
      var r := MergeHits(start, hits);
      if r != prev {
        SeenSnoc(prev, h);
      }
      assert Seen(prev) <= Seen(r) && h.0 in Seen(r);
      assert forall k :: 0 <= k < |hits| - 1 ==> hits[k] == init[k];
    }
  }

  /** The ids of the merged list are those of `start` and of the hits. */
  lemma {:induction false} MergeHitsSeen(start: seq<Hit>, hits: seq<Hit>)
    ensures Seen(MergeHits(start, hits)) == Seen(start) + Seen(hits)
  {
    if hits != [] {
      var init, h := hits[..|hits| - 1], hits[|hits| - 1];
      MergeHitsSeen(start, init);
      var prev := MergeHits(start, init);
      if h.0 !in Seen(prev) {
        SeenSnoc(prev, h);
      }
    }
  }

  /** Which hits are new: their id is neither in `start` nor on an earlier hit. */
  function NewKeep(start: seq<Hit>, hits: seq<Hit>): (keep: seq<bool>)
    ensures |keep| == |hits|
  {
    seq(|hits|, k requires 0 <= k < |hits| => hits[k].0 !in Seen(start) + Seen(hits[..k]))
  }

  lemma NewKeepSnoc(start: seq<Hit>, hits: seq<Hit>)
    requires hits != []
    ensures var init, h := hits[..|hits| - 1], hits[|hits| - 1];
            NewKeep(start, hits) == NewKeep(start, init) + [h.0 !in Seen(start) + Seen(init)]
  {
    var init := hits[..|hits| - 1];
    assert forall k :: 0 <= k < |init| ==> hits[..k] == init[..k];
  }

  lemma {:induction false} MergeHitsPicks(start: seq<Hit>, hits: seq<Hit>)
    ensures var r := MergeHits(start, hits);
            |start| <= |r| && Picks(r[|start|..], hits, NewKeep(start, hits))
  {
    MergeHitsPrefix(start, hits);
    if hits != [] {
      var init, h := hits[..|hits| - 1], hits[|hits| - 1];
      MergeHitsPicks(start, init);
      MergeHitsSeen(start, init);
      NewKeepSnoc(start, hits);
      var prev, r := MergeHits(start, init), MergeHits(start, hits);
      var b := h.0 !in Seen(start) + Seen(init);
      assert r[|start|..] == prev[|start|..] + (if b then [h] else []);
      assert hits == init + [h];
      PicksSnoc(prev[|start|..], init, NewKeep(start, init), b, h);
    }
  }

  /** After `start`, the merged list holds exactly the first hit of each id
      not in `start`, in the order of the hits. */
  lemma MergeHitsFirstOccurrences(start: seq<Hit>, hits: seq<Hit>)
    ensures var r, pos := MergeHits(start, hits), Positions(NewKeep(start, hits));
            Enumerates(pos, NewKeep(start, hits)) &&
            |r| == |start| + |pos| &&
            forall j :: 0 <= j < |pos| ==> pos[j] < |hits| && r[|start| + j] == hits[pos[j]]
  {
    PositionsSpec(NewKeep(start, hits));
    MergeHitsPicks(start, hits);
    var r, pos := MergeHits(start, hits), Positions(NewKeep(start, hits));
    forall j | 0 <= j < |pos| ensures pos[j] < |hits| && r[|start| + j] == hits[pos[j]] {
      assert r[|start| + j] == r[|start|..][j];
    }
  }

  /** The merged list starts with `start`; the rest is exactly the first hit
      of each id not in `start`, in the order of the hits; every hit id is
      kept, and no id is kept twice. */
  lemma MergeHitsSpec(start: seq<Hit>, hits: seq<Hit>)
    requires DistinctIds(start)
    ensures var r := MergeHits(start, hits);
            |start| <= |r| && r[..|start|] == start && IsSubsequence(r[|start|..], hits) &&
            DistinctIds(r) &&
            forall k :: 0 <= k < |hits| ==> hits[k].0 in Seen(r)
    ensures var r, pos := MergeHits(start, hits), Positions(NewKeep(start, hits));
            Enumerates(pos, NewKeep(start, hits)) &&
            |r| == |start| + |pos| &&
            forall j :: 0 <= j < |pos| ==> pos[j] < |hits| && r[|start| + j] == hits[pos[j]]
  {
    MergeHitsPrefix(start, hits);
    MergeHitsOrder(start, hits);
    MergeHitsDistinct(start, hits);
    MergeHitsKeeps(start, hits);
    MergeHitsFirstOccurrences(start, hits);
  }

  /** The hits with each id at its first occurrence only, in their order. */
  function FirstOccurrences(hits: seq<Hit>): (r: seq<Hit>)
  {
    var pos := Positions(NewKeep([], hits));
    PositionsBelow(NewKeep([], hits));
    seq(|pos|, j requires 0 <= j < |pos| => hits[pos[j]])
  }

  /** The merged list holds at most `topK` entries (for `topK` of 0 or more),
      no id twice, and a truthy forced id first with score 2.0. */
  lemma MergeSpec(forced: Option<string>, hits: seq<Hit>, topK: int)
    ensures 0 <= topK ==> |Merge(forced, hits, topK)| <= topK
    ensures DistinctIds(Merge(forced, hits, topK))
    ensures TruthyId(forced) && 1 <= topK ==> Merge(forced, hits, topK)[0] == (forced.value, 2.0)
  {
    var start: seq<Hit> := if TruthyId(forced) then [(forced.value, 2.0)] else [];
    MergeHitsSpec(start, hits);
    var all := MergeHits(start, hits);
    var r := Merge(forced, hits, topK);
    assert r == all[..|r|];
    forall i, j | 0 <= i < j < |r| ensures r[i].0 != r[j].0 {
      assert r[i] == all[i] && r[j] == all[j];
    }
    if TruthyId(forced) && 1 <= topK {
      assert |all| >= 1;
      assert all[0] == start[0];
    }
  }

  /** Without a forced id the merged list is the vector hits with each id
      kept at its first occurrence, in the order the index returned them,
      cut to `topK`. */
  lemma MergeWithoutForced(forced: Option<string>, hits: seq<Hit>, topK: int)
    requires !TruthyId(forced)
    ensures IsSubsequence(FirstOccurrences(hits), hits)
    ensures Merge(forced, hits, topK) == PyPrefix(FirstOccurrences(hits), topK)
  {
    MergeHitsSpec([], hits);
    var r := MergeHits([], hits);
    assert r[0..] == r;
    forall j | 0 <= j < |r| ensures r[j] == FirstOccurrences(hits)[j] {
      assert r[0 + j] == r[j];
    }
    assert r == FirstOccurrences(hits);
  }

  // --------------------------------------------------------------- fetch

  /** The document a merged entry yields from its stored row. */
  function DocumentOf(parse: string -> Option<Object>, entry: Hit, row: Row): Document
  {
    Document(entry.0, row.content, entry.1, MetadataOf(parse, row.metadata))
  }

  /** The document for one merged entry, when its id is stored. */
  function DocumentFor(store: seq<Row>, parse: string -> Option<Object>, entry: Hit): seq<Document>
  {
    match Lookup(store, entry.0)
    case None => []
    case Some(row) => [DocumentOf(parse, entry, row)]
  }

  /** The fetch loop over the merged list. */
  function Fetch(store: seq<Row>, parse: string -> Option<Object>, merged: seq<Hit>): (r: seq<Document>)
    ensures |r| <= |merged|
  {
    if merged == [] then []
    else Fetch(store, parse, merged[..|merged| - 1]) + DocumentFor(store, parse, merged[|merged| - 1])
  }

  function Key(d: Document): Hit
  {
    (d.id, d.score)
  }

  function Keys(docs: seq<Document>): (r: seq<Hit>)
    ensures |r| == |docs|
    ensures forall k :: 0 <= k < |docs| ==> r[k] == Key(docs[k])
  {
    seq(|docs|, k requires 0 <= k < |docs| => Key(docs[k]))
  }

  /** A document is a stored row's content, with the row's metadata parsed
      (or `{}` where it does not parse). */
  predicate FromStore(store: seq<Row>, parse: string -> Option<Object>, d: Document)
  {
    Lookup(store, d.id).Some? &&
    d.content == Lookup(store, d.id).value.content &&
    d.metadata == MetadataOf(parse, Lookup(store, d.id).value.metadata)
  }

  /** The documents keep the merged order, ids and scores. */
  lemma {:induction false} FetchOrder(store: seq<Row>, parse: string -> Option<Object>, merged: seq<Hit>)
    ensures IsSubsequence(Keys(Fetch(store, parse, merged)), merged)
  {
    if merged != [] {
      var init, e := merged[..|merged| - 1], merged[|merged| - 1];
      FetchOrder(store, parse, init);
      var prev := Fetch(store, parse, init);
      var docs := Fetch(store, parse, merged);
      assert merged == init + [e];
      if docs == prev {
        SubsequenceWiden(Keys(prev), init, e);
      } else {
        assert Keys(docs) == Keys(prev) + [e];
        SubsequenceSnoc(Keys(prev), init, e);
      }
    }
  }

  /** Every document comes from the store. */
  lemma {:induction false} FetchSound(store: seq<Row>, parse: string -> Option<Object>, merged: seq<Hit>)
    ensures forall k :: 0 <= k < |Fetch(store, parse, merged)| ==> FromStore(store, parse, Fetch(store, parse, merged)[k])
  {
    if merged != [] {
      var init := merged[..|merged| - 1];
      FetchSound(store, parse, init);
      var prev := Fetch(store, parse, init);
      var docs := Fetch(store, parse, merged);
      assert forall k :: 0 <= k < |prev| ==> docs[k] == prev[k];
    }
  }

  /** A merged entry is dropped only when no row has its id. */
  lemma {:induction false} FetchComplete(store: seq<Row>, parse: string -> Option<Object>, merged: seq<Hit>)
    requires forall k :: 0 <= k < |merged| ==> Lookup(store, merged[k].0).Some?
    ensures |Fetch(store, parse, merged)| == |merged|
  {
    if merged != [] {
      var init := merged[..|merged| - 1];
      assert forall k :: 0 <= k < |init| ==> init[k] == merged[k];
      FetchComplete(store, parse, init);
    }
  }

  /** Which merged entries have a stored row. */
  function FetchKeep(store: seq<Row>, merged: seq<Hit>): (keep: seq<bool>)
    ensures |keep| == |merged|
  {
    seq(|merged|, i requires 0 <= i < |merged| => Lookup(store, merged[i].0).Some?)
  }

  /** The document each merged entry would yield, were it stored. */
  function FetchVals(store: seq<Row>, parse: string -> Option<Object>, merged: seq<Hit>): (vals: seq<Document>)
    ensures |vals| == |merged|
  {
    seq(|merged|, i requires 0 <= i < |merged| =>
      match Lookup(store, merged[i].0)
      case Some(row) => DocumentOf(parse, merged[i], row)
      case None => Document(merged[i].0, "", merged[i].1, []))
  }

  lemma {:induction false} FetchPicks(store: seq<Row>, parse: string -> Option<Object>, merged: seq<Hit>)
    ensures Picks(Fetch(store, parse, merged), FetchVals(store, parse, merged), FetchKeep(store, merged))
  {
    if merged != [] {
      var init, e := merged[..|merged| - 1], merged[|merged| - 1];
      FetchPicks(store, parse, init);
      var x := match Lookup(store, e.0) case Some(row) => DocumentOf(parse, e, row) case None => Document(e.0, "", e.1, []);
      assert FetchKeep(store, merged) == FetchKeep(store, init) + [Lookup(store, e.0).Some?];
      assert FetchVals(store, parse, merged) == FetchVals(store, parse, init) + [x];
      PicksSnoc(Fetch(store, parse, init), FetchVals(store, parse, init), FetchKeep(store, init), Lookup(store, e.0).Some?, x);
    }
  }

  /** The documents are exactly those of the merged entries whose id is
      stored, in the merged order, each built from its entry and its row. */
  lemma FetchExact(store: seq<Row>, parse: string -> Option<Object>, merged: seq<Hit>)
    ensures var docs, pos := Fetch(store, parse, merged), Positions(FetchKeep(store, merged));
            Enumerates(pos, FetchKeep(store, merged)) &&
            |docs| == |pos| &&
            forall j :: 0 <= j < |pos| ==>
              (pos[j] < |merged| && Lookup(store, merged[pos[j]].0).Some? &&
               docs[j] == DocumentOf(parse, merged[pos[j]], Lookup(store, merged[pos[j]].0).value))
  {
    var keep := FetchKeep(store, merged);
    PositionsSpec(keep);
    FetchPicks(store, parse, merged);
    var pos := Positions(keep);
    forall j | 0 <= j < |pos|
      ensures pos[j] < |merged| && Lookup(store, merged[pos[j]].0).Some? &&
              Fetch(store, parse, merged)[j] == DocumentOf(parse, merged[pos[j]], Lookup(store, merged[pos[j]].0).value)
    {
      assert keep[pos[j]];
    }
  }

  /** Distinct merged ids give documents with distinct ids. */
  lemma FetchDistinct(store: seq<Row>, parse: string -> Option<Object>, merged: seq<Hit>)
    requires DistinctIds(merged)
    ensures DistinctIds(Keys(Fetch(store, parse, merged)))
  {
    FetchExact(store, parse, merged);
    var docs, pos := Fetch(store, parse, merged), Positions(FetchKeep(store, merged));
    forall i, j | 0 <= i < j < |docs| ensures Keys(docs)[i].0 != Keys(docs)[j].0 {
      assert pos[i] < pos[j];
    }
  }

  /** The documents keep the merged order and score; each is a stored row's
      content with its metadata parsed, or `{}` where it does not parse; they
      are exactly the merged entries whose id is stored, so none is dropped
      when every merged id is stored. */
  lemma FetchSpec(store: seq<Row>, parse: string -> Option<Object>, merged: seq<Hit>)
    ensures var docs := Fetch(store, parse, merged);
            IsSubsequence(Keys(docs), merged) &&
            (forall k :: 0 <= k < |docs| ==> FromStore(store, parse, docs[k])) &&
            ((forall k :: 0 <= k < |merged| ==> Lookup(store, merged[k].0).Some?) ==> |docs| == |merged|)
    ensures var docs, pos := Fetch(store, parse, merged), Positions(FetchKeep(store, merged));
            Enumerates(pos, FetchKeep(store, merged)) &&
            |docs| == |pos| &&
            forall j :: 0 <= j < |pos| ==>
              (pos[j] < |merged| && Lookup(store, merged[pos[j]].0).Some? &&
               docs[j] == DocumentOf(parse, merged[pos[j]], Lookup(store, merged[pos[j]].0).value))
  {
    FetchExact(store, parse, merged);
    FetchOrder(store, parse, merged);
    FetchSound(store, parse, merged);
    if forall k :: 0 <= k < |merged| ==> Lookup(store, merged[k].0).Some? {
      FetchComplete(store, parse, merged);
    }
  }

  /** The first merged entry, when stored, becomes the first document. */
  lemma FetchFirst(store: seq<Row>, parse: string -> Option<Object>, merged: seq<Hit>, row: Row)
    requires merged != [] && Lookup(store, merged[0].0) == Some(row)
    ensures var docs := Fetch(store, parse, merged);
            docs != [] && docs[0] == Document(merged[0].0, row.content, merged[0].1, MetadataOf(parse, row.metadata))
  {
    FetchPrefix(store, parse, merged, 1);
    assert merged[..1][..0] == [];
  }

  /** Fetching a prefix yields a prefix of the documents. */
  lemma {:induction false} FetchPrefix(store: seq<Row>, parse: string -> Option<Object>, merged: seq<Hit>, n: nat)
    requires n <= |merged|
    ensures var a, b := Fetch(store, parse, merged[..n]), Fetch(store, parse, merged);
            |a| <= |b| && b[..|a|] == a
  {
    if n < |merged| {
      FetchPrefix(store, parse, merged[..|merged| - 1], n);
      assert merged[..|merged| - 1][..n] == merged[..n];
    } else {
      assert merged[..n] == merged;
    }
  }

  /** A retrieval never returns two documents with the same id. */
  lemma RetrievedDistinct(store: seq<Row>, parse: string -> Option<Object>,
                          forced: Option<string>, hits: seq<Hit>, topK: int)
    ensures DistinctIds(Keys(Fetch(store, parse, Merge(forced, hits, topK))))
  {
    MergeSpec(forced, hits, topK);
    FetchDistinct(store, parse, Merge(forced, hits, topK));
  }

  /** Scores never rise along the list, as FAISS returns its neighbours. */
  predicate Descending(hits: seq<Hit>)
  {
    forall i, j :: 0 <= i < j < |hits| ==> hits[j].1 <= hits[i].1
  }

  /** After `start`, the merged list keeps the hits' descending scores. */
  lemma MergeHitsDescending(start: seq<Hit>, hits: seq<Hit>)
    requires Descending(hits)
    ensures var r := MergeHits(start, hits);
            forall i, j :: |start| <= i < j < |r| ==> r[j].1 <= r[i].1
  {
    MergeHitsFirstOccurrences(start, hits);
    var r, pos := MergeHits(start, hits), Positions(NewKeep(start, hits));
    forall i, j | |start| <= i < j < |r| ensures r[j].1 <= r[i].1 {
      var a, b := i - |start|, j - |start|;
      assert r[|start| + a] == hits[pos[a]] && r[|start| + b] == hits[pos[b]];
      assert pos[a] < pos[b];
    }
  }

  /** The merged list is in descending score order after the forced entry,
      which, when present, scores 2.0. */
  lemma MergeDescending(forced: Option<string>, hits: seq<Hit>, topK: int)
    requires Descending(hits)
    ensures var m, lo := Merge(forced, hits, topK), if TruthyId(forced) then 1 else 0;
            (forall i, j :: lo <= i < j < |m| ==> m[j].1 <= m[i].1) &&
            (lo == 1 && m != [] ==> m[0].1 == 2.0)
  {
    var start: seq<Hit> := if TruthyId(forced) then [(forced.value, 2.0)] else [];
    MergeHitsDescending(start, hits);
    MergeHitsPrefix(start, hits);
    var all, m := MergeHits(start, hits), Merge(forced, hits, topK);
    assert m == all[..|m|];
    if TruthyId(forced) && m != [] {
      assert m[0] == all[0] == start[0];
    }
  }

  /** Fetching keeps a descending order after position `lo` (at most 1):
      the first document comes from before `lo`, at score 2.0, or scores at
      least as high as every later one. */
  lemma FetchTopScore(store: seq<Row>, parse: string -> Option<Object>, merged: seq<Hit>, lo: nat)
    requires lo <= 1
    requires forall i, j :: lo <= i < j < |merged| ==> merged[j].1 <= merged[i].1
    requires lo == 1 && merged != [] ==> merged[0].1 == 2.0
    ensures var docs := Fetch(store, parse, merged);
            docs != [] ==> docs[0].score == 2.0 || forall j :: 0 < j < |docs| ==> docs[j].score <= docs[0].score
  {
    FetchExact(store, parse, merged);
    var docs, q := Fetch(store, parse, merged), Positions(FetchKeep(store, merged));
    if docs != [] && q[0] >= lo {
      forall j | 0 < j < |docs| ensures docs[j].score <= docs[0].score {
        assert q[0] < q[j];
      }
    }
  }

  /** With the vector hits in descending score order, the first document is
      either the forced record, at score 2.0, or scores at least as high as
      every later document. */
  lemma TopScore(store: seq<Row>, parse: string -> Option<Object>,
                 forced: Option<string>, hits: seq<Hit>, topK: int)
    requires Descending(hits)
    ensures var docs := Fetch(store, parse, Merge(forced, hits, topK));
            docs != [] ==> docs[0].score == 2.0 || forall j :: 0 < j < |docs| ==> docs[j].score <= docs[0].score
  {
    MergeDescending(forced, hits, topK);
    FetchTopScore(store, parse, Merge(forced, hits, topK), if TruthyId(forced) then 1 else 0);
  }

  // ------------------------------------------------------------- context

  /** `md.get('name') or md.get('title')`. */
  function ContextName(md: Object): Json
  {
    Or(Field(md, "name"), Field(md, "title"))
  }

  /** `last_entity` after the documents are returned. */
  function ContextAfter(last: Option<Entity>, docs: seq<Document>): Option<Entity>
  {
    if docs != [] && Truthy(ContextName(docs[0].metadata))
    then Some(Entity(docs[0].id, ContextName(docs[0].metadata)))
    else last
  }

  /** The context changes only when there are documents and the top one has a
      truthy `name` or `title`; it then names the top document, by its `name`
      when that is truthy and by its `title` otherwise. */
  lemma ContextRefresh(last: Option<Entity>, docs: seq<Document>)
    ensures ContextAfter(last, docs) != last ==> docs != [] && Truthy(ContextName(docs[0].metadata))
    ensures docs != [] && Truthy(Field(docs[0].metadata, "name")) ==>
              ContextAfter(last, docs) == Some(Entity(docs[0].id, Field(docs[0].metadata, "name")))
    ensures docs != [] && !Truthy(Field(docs[0].metadata, "name")) && Truthy(Field(docs[0].metadata, "title")) ==>
              ContextAfter(last, docs) == Some(Entity(docs[0].id, Field(docs[0].metadata, "title")))
    ensures docs == [] || !Truthy(ContextName(docs[0].metadata)) ==> ContextAfter(last, docs) == last
  {
  }

  // ---------------------------------------------------------- end to end

  /** A follow-up with a pronoun, no fuzzy match and a stored context
      record: the search query carries the context name, and the context
      record comes first with score 2.0, whatever the vector search returns. */
  lemma PronounFollowUp(known: seq<KnownName>, last: Option<Entity>,
                        extractOne: (string, seq<Json>) -> (Json, int), question: string,
                        store: seq<Row>, parse: string -> Option<Object>, hits: seq<Hit>, topK: int, row: Row)
    requires last.Some? && last.value.id != ""
    requires HasPronoun(Lower(ExpandQuery(question)))
    requires !TruthyId(FuzzyId(known, extractOne, ExpandQuery(question)))
    requires Lookup(store, last.value.id) == Some(row) && 1 <= topK
    ensures var p := PlanFor(known, last, extractOne, question);
            p.searchQuery == ExpandQuery(question) + " " + Str(last.value.name) &&
            var docs := Fetch(store, parse, Merge(p.forced, hits, topK));
            docs != [] && docs[0] == Document(last.value.id, row.content, 2.0, MetadataOf(parse, row.metadata))
  {
    var p := PlanFor(known, last, extractOne, question);
    MergeSpec(p.forced, hits, topK);
    FetchFirst(store, parse, Merge(p.forced, hits, topK), row);
  }

  /** A fuzzy match decides the first document even against a pronoun and a
      context, and the search query is the expanded question unchanged. */
  lemma FuzzyOverridesContext(known: seq<KnownName>, last: Option<Entity>,
                              extractOne: (string, seq<Json>) -> (Json, int), question: string,
                              store: seq<Row>, parse: string -> Option<Object>, hits: seq<Hit>, topK: int, row: Row)
    requires TruthyId(FuzzyId(known, extractOne, ExpandQuery(question)))
    requires Lookup(store, FuzzyId(known, extractOne, ExpandQuery(question)).value) == Some(row) && 1 <= topK
    ensures var p := PlanFor(known, last, extractOne, question);
            p.searchQuery == ExpandQuery(question) &&
            var docs := Fetch(store, parse, Merge(p.forced, hits, topK));
            docs != [] && docs[0].id == p.fuzzy.value && docs[0].score == 2.0
  {
    var p := PlanFor(known, last, extractOne, question);
    MergeSpec(p.forced, hits, topK);
    FetchFirst(store, parse, Merge(p.forced, hits, topK), row);
  }

  /** The context a turn leaves is what the next turn's pronoun resolves to:
      once a document named by a truthy `name` or `title` came first, a
      follow-up with a pronoun and no fuzzy match is forced to that document. */
  lemma ContextCarriesOver(known: seq<KnownName>, last: Option<Entity>, docs: seq<Document>,
                           extractOne: (string, seq<Json>) -> (Json, int), followUp: string)
    requires docs != [] && Truthy(ContextName(docs[0].metadata))
    requires HasPronoun(Lower(ExpandQuery(followUp)))
    requires !TruthyId(FuzzyId(known, extractOne, ExpandQuery(followUp)))
    ensures PlanFor(known, ContextAfter(last, docs), extractOne, followUp).forced == Some(docs[0].id)
  {
  }

  // --------------------------------------------------------------- reply

  /** One entry of `sources`. */
  datatype Source = Source(id: string, score: real, metadata: Object)

  /** What `answer_question` returns. */
  datatype Reply = Reply(answer: Json, sources: seq<Source>)

  /** `sources`: the first three documents, without their content. */
  function Sources(docs: seq<Document>): (r: seq<Source>)
    ensures |r| == if |docs| < 3 then |docs| else 3
    ensures forall k :: 0 <= k < |r| ==> r[k] == Source(docs[k].id, docs[k].score, docs[k].metadata)
  {
    var n := if |docs| < 3 then |docs| else 3;
    seq(n, k requires 0 <= k < n => Source(docs[k].id, docs[k].score, docs[k].metadata))
  }

  /** The answer and its sources for the retrieved documents. */
  function ReplyFor(question: string, docs: seq<Document>): Result<Reply>
  {
    match GenerateAnswer(question, docs)
    case Ok(answer) => Ok(Reply(answer, Sources(docs)))
    case Err(e) => Err(e)
  }

  /** The merge loop of `retrieve_relevant_documents`, then the `[:top_k]` cut. */
  method MergeResults(forced: Option<string>, hits: seq<Hit>, topK: int) returns (r: seq<Hit>)
    ensures r == Merge(forced, hits, topK)
  {
    var start: seq<Hit> := [];
    var seen: set<string> := {};
    if TruthyId(forced) {
      start := [(forced.value, 2.0)];
      seen := {forced.value};
      assert start == [] + [start[0]];
    }
    r := start;
    for i := 0 to |hits|
      invariant r == MergeHits(start, hits[..i])
      invariant seen == Seen(r)
    {
      assert hits[..i + 1][..i] == hits[..i];
      var (rid, score) := hits[i];
      if rid !in seen {
        SeenSnoc(r, (rid, score));
        r := r + [(rid, score)];
        seen := seen + {rid};
      }
    }
    assert hits[..|hits|] == hits;
    r := PyPrefix(r, topK);
  }

  /** The fetch loop: each merged id looked up, the missing ones skipped. */
  method FetchDocuments(store: seq<Row>, parse: string -> Option<Object>, merged: seq<Hit>) returns (documents: seq<Document>)
    ensures documents == Fetch(store, parse, merged)
  {
    documents := [];
    for i := 0 to |merged|
      invariant documents == Fetch(store, parse, merged[..i])
    {
      assert merged[..i + 1][..i] == merged[..i];
      var (recordId, score) := merged[i];
      var record := Lookup(store, recordId);
      if record.Some? {
        var originalData := MetadataOf(parse, record.value.metadata);
        documents := documents + [Document(recordId, record.value.content, score, originalData)];
      }
    }
    assert merged[..|merged|] == merged;
  }

  // --------------------------------------------------------------- class

  class RAGSearch {
    /** The rows of `db.get_all_records()`, in table order. */
    const store: seq<Row>
    /** `json.loads` on a metadata text: the dict, or None where it raises. */
    const parse: string -> Option<Object>
    /** `process.extractOne(query, names, scorer=fuzz.token_set_ratio)`. */
    const extractOne: (string, seq<Json>) -> (Json, int)
    const embedding: EmbeddingManager
    var knownNames: seq<KnownName>
    var lastEntity: Option<Entity>

    constructor (store: seq<Row>, parse: string -> Option<Object>,
                 extractOne: (string, seq<Json>) -> (Json, int), embedding: EmbeddingManager)
      ensures this.store == store && this.parse == parse
      ensures this.extractOne == extractOne && this.embedding == embedding
      ensures knownNames == Catalogue(store, parse) && lastEntity == None
    {
      this.store := store;
      this.parse := parse;
      this.extractOne := extractOne;
      this.embedding := embedding;
      knownNames := [];
      lastEntity := None;
      new;
      LoadKnownNames();
    }

    /** `_load_known_names`: `name` then `title` of every row whose metadata parses. */
    method LoadKnownNames()
      modifies this
      ensures knownNames == Catalogue(store, parse)
      ensures lastEntity == old(lastEntity)
    {
      knownNames := [];
      for i := 0 to |store|
        invariant knownNames == Catalogue(store[..i], parse)
        invariant lastEntity == old(lastEntity)
      {
        assert store[..i + 1][..i] == store[..i];
        var row := store[i];
        var metadata := parse(row.metadata);
        if metadata.Some? {
          var md := metadata.value;
          if HasKey(md, "name") {
            knownNames := knownNames + [(Get(md, "name").value, row.id)];
          }
          if HasKey(md, "title") {
            knownNames := knownNames + [(Get(md, "title").value, row.id)];
          }
        }
      }
      assert store[..|store|] == store;
    }

    /** The result `retrieve_relevant_documents(question, topK)` gives and
        the context it leaves, in the current state. */
    function RetrieveOutcome(question: string, topK: int): (Result<seq<Document>>, Option<Entity>)
      reads this, embedding
    {
      var p := PlanFor(knownNames, lastEntity, extractOne, question);
      match embedding.SearchResult(p.searchQuery, topK)
      case Err(e) => (Err(e), lastEntity)
      case Ok(hits) =>
        var docs := Fetch(store, parse, Merge(p.forced, hits, topK));
        (Ok(docs), ContextAfter(lastEntity, docs))
    }

    /** The documents of a successful retrieval have distinct ids. */
    lemma RetrieveDistinct(question: string, topK: int)
      ensures RetrieveOutcome(question, topK).0.Ok? ==> DistinctIds(Keys(RetrieveOutcome(question, topK).0.value))
    {
      var p := PlanFor(knownNames, lastEntity, extractOne, question);
      if embedding.SearchResult(p.searchQuery, topK).Ok? {
        RetrievedDistinct(store, parse, p.forced, embedding.SearchResult(p.searchQuery, topK).value, topK);
      }
    }

    /** Before any index is built (no records were loaded, so `build_index`
        never ran), retrieval raises the index's ValueError and keeps the
        context; it does not return an empty list. */
    lemma RetrieveWithoutIndex(question: string, topK: int)
      requires embedding.index.None?
      ensures RetrieveOutcome(question, topK) == (Err(ValueError("Index not built yet")), lastEntity)
    {
    }

    /** An index over no vectors pads its answer with -1; with an empty
        mapping, any negative position makes retrieval raise IndexError and
        keep the context, rather than return an empty list. */
    lemma RetrieveWithEmptyMapping(question: string, topK: int)
      requires embedding.index.Some? && embedding.idMapping == []
      requires var q := PlanFor(knownNames, lastEntity, extractOne, question).searchQuery;
               exists j :: 0 <= j < |embedding.rawSearch(embedding.index.value, q, topK)| &&
                           embedding.rawSearch(embedding.index.value, q, topK)[j].0 < 0
      ensures RetrieveOutcome(question, topK) == (Err(IndexError), lastEntity)
    {
    }

    /** The fuzzy step of `retrieve_relevant_documents`. */
    method FuzzyStep(query: string) returns (fuzzy: Option<string>)
      ensures fuzzy == FuzzyId(knownNames, extractOne, query)
    {
      fuzzy := None;
      if knownNames != [] {
        var best := extractOne(query, Names(knownNames));
        if best.1 > 80 {
          var i := 0;
          while i < |knownNames|
            invariant i <= |knownNames|
            invariant forall j :: 0 <= j < i ==> knownNames[j].0 != best.0
          {
            if knownNames[i].0 == best.0 {
              fuzzy := Some(knownNames[i].1);
              FindNameIdAt(knownNames, best.0, i);
              return;
            }
            i := i + 1;
          }
          FindNameIdAt(knownNames, best.0, |knownNames|);
        }
      }
    }

    /** `retrieve_relevant_documents`: the documents for the question, with
        `last_entity` refreshed from the top one. */
    method Retrieve(question: string, topK: int) returns (r: Result<seq<Document>>)
      modifies this
      ensures (r, lastEntity) == old(RetrieveOutcome(question, topK))
      ensures knownNames == old(knownNames)
    {
      var query := ExpandQuery(question);
      var hasPronoun := HasPronoun(Lower(query));
      var forced: Option<string> := None;
      if hasPronoun && lastEntity.Some? {
        forced := Some(lastEntity.value.id);
      }
      var fuzzy := FuzzyStep(query);
      if TruthyId(fuzzy) {
        forced := fuzzy;
      }
      var searchQuery := query;
      if hasPronoun && lastEntity.Some? && !TruthyId(fuzzy) {
        searchQuery := query + " " + Str(lastEntity.value.name);
      }
      var results := embedding.Search(searchQuery, topK);
      if results.Err? {
        return Err(results.error);
      }
      var hits := results.value;

      var finalResults := MergeResults(forced, hits, topK);
      var documents := FetchDocuments(store, parse, finalResults);

      if documents != [] {
        var md := documents[0].metadata;
        var filesName := Or(Field(md, "name"), Field(md, "title"));
        if Truthy(filesName) {
          lastEntity := Some(Entity(documents[0].id, filesName));
        }
      }
      return Ok(documents);
    }

    /** `answer_question`: retrieve five documents, answer from them, and
        list the first three as sources. */
    method AnswerQuestion(question: string) returns (r: Result<Reply>)
      modifies this
      ensures var outcome := old(RetrieveOutcome(question, 5));
              lastEntity == outcome.1 &&
              r == match outcome.0
                   case Err(e) => Err(e)
                   case Ok(docs) => ReplyFor(question, docs)
      ensures knownNames == old(knownNames)
    {
      var documents := Retrieve(question, 5);
      if documents.Err? {
        return Err(documents.error);
      }
      var answer := GenerateAnswer(question, documents.value);
      if answer.Err? {
        return Err(answer.error);
      }
      return Ok(Reply(answer.value, Sources(documents.value)));
    }
  }
}
